=== FILE: README.md ===
# MineSense Ghana — a Dafny model of the grievance store, chat and export

MineSense Ghana lets people in mining communities report grievances, follow
them on a dashboard, export them as CSV, and ask a chat assistant about their
rights. This project models the logic behind those features and proves
properties about it:

- **`ReportsStore`** (`reports_store.dfy`): the client-side store of
  reports. New reports go in front, and subscribed callbacks are notified in
  order. A report's identifier is built from the last three digits of the
  millisecond clock. Unsubscribing removes every copy of a callback.
- **`Fallback`** (`fallback.dfy`): the keyword responder the server uses
  when the completion service fails. It is a case-insensitive ladder of
  substring tests where the first match wins, and it picks one of five
  fixed answers. The ladder is modelled twice: as the code's cascade of
  `if`s and as a list of rules. The two are proved to choose the same answer.
- **`ChatServer`** (`chat_server.dfy`): the `/api/chat` handler. It
  validates the body, builds the completion request (system prompt, the
  whole history, the message), and falls back to the keyword responder
  when the call fails.
- **`Api`** (`api.dfy`): the client's `sendMessage`. It trims the history to
  the last ten entries and turns every failure into a fixed apology. The
  handler is then composed end to end, and the module also covers the
  export download's file name.
- **`CsvExport`** (`csv_export.dfy`): the export body as the server writes
  it, plus an RFC 4180 reader. Round trips are proved for the fields the
  writer quotes correctly. Two kinds of counterexample are proved at row
  level: a title holding a quote makes the row unreadable, and a category
  holding a comma makes the row read back with one field too many (shown
  for any bare cell). Location and reporter name fail the same way as the
  title; for them, and for the other bare fields, the round trips simply
  require no quote, comma or line break.
- **`Assistant`** (`assistant.dfy`): the assistant page's conversation.
  Sending appends the user's message and schedules a reply timer. The reply
  comes from the page's own copy of the keyword ladder. Over any run of
  typing, sending and timer events, questions and replies stay matched
  first in, first out. Each reply after the greeting answers the question
  of the same rank, and the pending timers hold exactly the unanswered
  questions, oldest first.
- **`Dashboard`** (`dashboard.dfy`): the badge colours for severity and
  status, and the text colours for month-on-month changes and hotspot trends.
- **`Common`** (`common.dfy`): string helpers. These are ASCII lower-casing,
  substring search, JavaScript `trim`, decimal numerals, `split`/`slice`,
  and `join`.

Clocks, the completion service, HTTP and the canned answer texts are
parameters or opaque constants (see "Left out").

The model follows the code as written:
- Unsubscribing drops every subscription of the same callback, not just one.
- From 100 ms on, report identifiers repeat whenever two clocks agree
  modulo 1000. Below 100 ms the identifier carries the whole numeral, which
  does not match the padded form: 5 ms gives `GR-2024-5` but 1005 ms gives
  `GR-2024-005`.
- Only the description column of the CSV escapes inner quotes. Title,
  location and reporter name are wrapped in quotes without escaping, and
  the other fields are written bare.
- The export endpoint writes its own inline list of three records. They
  match the first three seed reports of the store field for field. It does
  not write the store's contents.
- A successful chat reply has no `fallback` field; it reads as `false`.
- On the assistant page the Enter key calls the send handler even while the
  send button is disabled. The first reply to arrive clears the loading
  flag, even if another reply is still pending.

## Model

| member | source | states |
|---|---|---|
| ReportsStore.ReportId | src/store/reportsStore.ts:80 | The identifier is `GR-2024-` followed by the clock modulo 1000, zero padded, once the clock is at least 100 ms; below that, the whole numeral. It is never longer than prefix plus three. |
| ReportsStore.ReportIdCollides | src/store/reportsStore.ts:80 | From 100 ms on, any two clock readings that agree modulo 1000 give the same identifier, so identifiers are not unique. |
| ReportsStore.ReportIdShortNeverPadded | src/store/reportsStore.ts:80 | A clock below 10 ms gives a one-digit identifier and one from 100 ms on a three-digit one, so the two never collide, even when they agree modulo 1000 (5 ms and 1005 ms). |
| ReportsStore.ReportIdCollisionExample | src/store/reportsStore.ts:80 | Submissions at 1123 ms and 2123 ms get the same identifier. |
| ReportsStore.AddReport | src/store/reportsStore.ts:79-91 | The new report goes first and the old list follows unchanged. It carries every submitted field, has status "Under Review", and its submission date is the ISO text before the first 'T'. The returned id is the report's id. Every subscribed callback is called once per subscription, in order. |
| ReportsStore.Notify | src/store/reportsStore.ts:104-106 | `forEach` calls the subscribed callbacks one after another: the call trace is the subscription list, element for element, so each callback is called once per subscription, in subscription order. |
| ReportsStore.GetReportsAfter | src/store/reportsStore.ts:79-101 | What `getReports` returns after an operation: after an addition, the new report (with the returned identifier and status "Under Review") in front of the earlier list; after subscribing or unsubscribing, the same list. |
| ReportsStore.Subscribe | src/store/reportsStore.ts:97-98 | The callback is appended after the existing subscriptions, and the reports are untouched. |
| ReportsStore.RemoveAll | src/store/reportsStore.ts:100 | Filtering removes every copy of the callback. It keeps every other callback as often as it occurred, in the same relative order. |
| ReportsStore.Unsubscribe | src/store/reportsStore.ts:99-101 | The returned function removes every subscription of that callback and leaves the other subscriptions and the reports alone. |
| ReportsStore.RemoveAbsent | src/store/reportsStore.ts:100 | Removing a callback that is not subscribed changes nothing. |
| ReportsStore.RemoveAppend | src/store/reportsStore.ts:100 | Filtering distributes over concatenation of subscription lists. |
| ReportsStore.SubscribeTwiceUnsubscribeOnce | src/store/reportsStore.ts:97-101 | Subscribing the same callback twice and calling one unsubscribe returns the store to its state before both subscriptions. |
| ReportsStore.UnsubscribeIdempotent | src/store/reportsStore.ts:99-101 | Unsubscribing twice is the same as unsubscribing once. |
| ReportsStore.StaysAbsent | src/store/reportsStore.ts:97-106 | An absent callback stays absent, and is not called, under any single operation except subscribing it. |
| ReportsStore.NoCallsAfterUnsubscribe | src/store/reportsStore.ts:97-106 | Once unsubscribed, a callback is never called again over any run of operations that does not resubscribe it. |
| ReportsStore.ReportsOnlyGrow | src/store/reportsStore.ts:79-95 | Over any run of operations, the list grows by exactly one report per addition. The earlier reports stay unchanged at the back. |
| ReportsStore.InitialStore | src/store/reportsStore.ts:18-77 | The store starts with four seed reports, GR-2024-089 down to GR-2024-086 in that order, and no subscriber. |
| Common.TrimEmptyIff | src/pages/Assistant.tsx:37 | `trim()` gives the empty string exactly when every character is JavaScript whitespace. |
| Common.DecimalRoundTrip | src/pages/Assistant.tsx:40 | The decimal numeral of the clock reads back as the clock value. |
| Common.DecimalInjective | src/pages/Assistant.tsx:53 | Different clock readings give different message identifiers. |
| Fallback.GetFallbackResponse | server/index.js:114-134 | The responder is total. It returns one of exactly five answers: the one of the first rule that fires on the lower-cased message. |
| Fallback.SelectTopicIsFirstMatch | server/index.js:115-133 | The cascade of `if`s picks the same answer as the first firing rule of the ladder rights → water/pollution → compensation/damage → environmental/standard → general. |
| Fallback.SelectTopicIff | server/index.js:117-133 | For each answer, an if-and-only-if: its keywords occur and no earlier rule's keyword does. The rights rule fires exactly when "right" occurs. |
| Fallback.FallbackCaseInsensitive | server/index.js:115 | The answer depends only on the lower-cased message. |
| Fallback.TextInjective | server/index.js:117-133 | The five answers are distinct, so the reply identifies the rule that fired. |
| Fallback.RightsExample | server/index.js:117-119 | "What are my rights as a community member near mining operations?" gets the rights answer. |
| Fallback.PollutionExample | server/index.js:121-123 | "How do I report water pollution from mining activities?" gets the pollution answer. |
| Fallback.CompensationExample | server/index.js:125-127 | "What compensation can I claim for property damage from blasting?" gets the compensation answer. |
| Fallback.StandardsExample | server/index.js:129-131 | "What environmental standards must mining companies follow in Ghana?" gets the standards answer. |
| Fallback.GeneralExample | server/index.js:133 | "hello" matches no keyword and gets the general answer. |
| ChatServer.TagHistory | server/index.js:75-78 | Each history entry becomes one message, in order: role user for user entries, assistant otherwise, same content. |
| ChatServer.BuildMessages | server/index.js:70-83 | The message list is the system prompt, then every history entry in order, then the new message as the user. |
| ChatServer.UntagTag | server/index.js:75-78 | Tagging loses nothing: the history can be read back from the tagged messages. |
| ChatServer.BuildMessagesRoundTrip | server/index.js:70-83 | The history and the new message can be recovered from the built message list. |
| ChatServer.HandleChat | server/index.js:61-111 | A falsy message gets 400 "Message is required" and no request is sent. A request is sent exactly when the message is truthy and mapping the history does not throw. The reply is then 200 with the current timestamp. It is either the first choice of a completed request of history+2 messages, or it is flagged as a fallback and is the keyword responder's answer. |
| ChatServer.HistoryOf | server/index.js:63-78 | When mapping does not throw, the history is the list's entries in order, or empty when the field is missing. |
| ChatServer.NullEntryFallsBack | server/index.js:75-78 | A `null` element anywhere in the history makes `msg.isUser` throw: no request is sent and the reply is the keyword responder's answer flagged as a fallback. |
| ChatServer.RequestContents | server/index.js:85-90 | The request uses model gpt-3.5-turbo, 500 max tokens, temperature 0.7, and the built message list. |
| ChatServer.FallbackIffFailure | server/index.js:75-110 | For a truthy message, the reply is always 200. It is a fallback exactly when the history is not a list or holds a `null` element, the completion failed, or the completion had no choices. |
| ChatServer.NoServerTrimming | server/index.js:63-83 | The server forwards the entire history it is given; only the client trims. |
| Api.TrimHistory | src/services/api.ts:26 | `slice(-10)` yields at most ten entries: the whole history when it is that short, otherwise exactly the last ten. |
| Api.Resolve | src/services/api.ts:30-43 | An OK status with a readable body yields that body. A transport error, non-OK status or unreadable body yields the apology flagged as a fallback. |
| Api.SendMessage | src/services/api.ts:17-44 | The client posts the message with the trimmed history. It returns the server's reply exactly when the response is OK and readable, and the apology otherwise. |
| Api.OmittedHistoryPostsEmpty | src/services/api.ts:17-26 | A call that omits the history posts the message with an empty history, and returns the server's reply or the apology accordingly. |
| Api.NonOkIsNetworkError | src/services/api.ts:30-32 | A non-OK status is handled like a transport failure, whatever the body. |
| Api.SameWindowSameRequest | src/services/api.ts:26 | Two histories of at least ten entries that agree on their last ten give the same reply. |
| Api.EmptyMessageGetsApology | src/services/api.ts:30-43 | Against this server, an empty message is refused with 400 and the client shows the apology. |
| Api.ServiceDownGetsKeywordAnswer | server/index.js:99-110 | With the completion service down, a non-empty message gets the server's keyword answer flagged as a fallback, never the client's apology. |
| Api.CompletionSeesAtMostTwelve | src/services/api.ts:24-27 | End to end, the completion service receives at most twelve messages. With ten or fewer history entries it receives exactly history+2. |
| Api.DatePart | src/services/api.ts:63 | `split('T')[0]` is the longest prefix without 'T'. It is followed by 'T' or is the whole text. |
| Api.ExportFileName | src/services/api.ts:63 | The download name is `mining-reports-`, then the date part, then `.csv`. |
| Api.ExportFileNameOfIso | src/services/api.ts:63 | For an ISO timestamp, the file is named after its first ten characters. |
| CsvExport.EscapeQuotes | server/index.js:201 | Doubling quotes never shortens the text, and leaves quote-free text unchanged. |
| CsvExport.RowCells | server/index.js:189-202 | A row has twelve cells whose values are the report's fields in header order. |
| CsvExport.Row | server/index.js:189-202 | A row starts with the bare identifier and a comma, and ends with the description between quotes with its inner quotes doubled. |
| CsvExport.Rows | server/index.js:188-203 | One row per report, in order. |
| CsvExport.Body | server/index.js:187-205 | The body (`Csv` is the body after the fixed header line) starts with the header. Without reports it is the header alone; otherwise the first report's row follows the header directly. |
| CsvExport.ExportCsv | server/index.js:137-205 | The export endpoint writes the CSV of its inline records, and that CSV is the export of the first three reports the store starts with, whatever the store holds now. |
| CsvExport.ExportSeedIsStoreSeed | server/index.js:141-184 | The endpoint's three inline records equal the store's first three seed reports, field by field. |
| CsvExport.BareRoundTrip | server/index.js:190 | A bare field without comma or line break reads back unchanged. |
| CsvExport.EscapedRoundTrip | server/index.js:201 | A field whose inner quotes are doubled reads back as the original text under RFC 4180 quoting. |
| CsvExport.FieldRoundTrip | server/index.js:190-201 | Each readable cell reads back as its value and leaves what follows. |
| CsvExport.RecordRoundTrip | server/index.js:189-202 | A line of readable cells joined by commas reads back as their values. |
| CsvExport.RowRoundTrip | server/index.js:189-202 | An exportable report's row reads back as its twelve fields. |
| CsvExport.RowsRoundTrip | server/index.js:188-203 | Rows joined by line breaks read back as each report's fields, in order. |
| CsvExport.HeaderReadable | server/index.js:187 | Every header name can be written bare. |
| CsvExport.HeaderLineRoundTrip | server/index.js:187 | A header line of bare names reads back as the names and leaves the text after its line break. |
| CsvExport.DocumentRoundTrip | server/index.js:187-205 | A header line followed by the rows reads back as the names, then each report's fields. |
| CsvExport.CsvRoundTrip | server/index.js:186-205 | The whole export of exportable reports reads back as the header names followed by each report's fields. |
| CsvExport.RowHasTwelveFields | server/index.js:187-202 | An exportable report's row splits into exactly as many fields as the header. |
| CsvExport.ExportableFields | server/index.js:189-202 | A report is exportable when its bare fields hold no comma, quote or line break, and its quote-wrapped fields hold no quote. |
| CsvExport.UnescapeEscape | server/index.js:201 | Collapsing doubled quotes undoes the description's escaping. |
| CsvExport.DescriptionRoundTrip | server/index.js:201 | The description column is quoted, and unquoting and unescaping it gives back the description. |
| CsvExport.EscapeAppend | server/index.js:201 | Escaping distributes over concatenation. |
| CsvExport.EscapeAroundQuotes | server/index.js:201 | Quotes around quote-free text are each doubled. |
| CsvExport.QuotedDescriptionExample | server/index.js:201 | The description `He said "stop"` is written as `"He said ""stop"""`. |
| CsvExport.QuoteInsideEndsField | server/index.js:191 | The RFC 4180 reader ends a quoted field at a lone inner quote. |
| CsvExport.WrappedQuoteUnreadable | server/index.js:191 | Text that follows a wrapped `a"b` cannot be read as a field boundary. |
| CsvExport.QuotedTitleBreaksRow | server/index.js:191 | The title is wrapped without escaping, so a row whose title is `a"b` does not read back. |
| CsvExport.BareCommaBreaksRow | server/index.js:193 | The category is written bare, so a category `a,b` reads back as `a` and `b`: the row has thirteen fields. |
| CsvExport.SplitCellReadsTwo | server/index.js:189-202 | A bare cell holding `a,b`, at any position, reads back as two values `a` and `b` in its place. |
| CsvExport.NoTrailingLineBreak | server/index.js:203-205 | A non-empty export ends with the closing quote of the last description, with no final line break. |
| Assistant.InitialConversation | src/pages/Assistant.tsx:18-27 | The page starts with one assistant greeting with id "1", an empty input and no loading. |
| Assistant.SimulatedResponse | src/pages/Assistant.tsx:63-83 | The page's copy of the ladder answers exactly as the server's keyword responder does. |
| Assistant.SimulatedResponseCaseInsensitive | src/pages/Assistant.tsx:64 | The page's reply depends only on the lower-cased question. |
| Assistant.SuggestionAnswers | src/pages/Assistant.tsx:29-34 | The four suggested questions get the rights, pollution, compensation and standards answers, in that order. |
| Assistant.Send | src/pages/Assistant.tsx:36-49 | Blank input changes nothing and schedules nothing. Otherwise the raw input is appended as the user's message with the clock as id, the box is cleared, loading is set, and a reply to that input is scheduled. |
| Assistant.DeliverReply | src/pages/Assistant.tsx:51-60 | The timer appends the answer as the assistant's message with id clock+1, keeps the input, and clears loading. |
| Assistant.SetInput | src/pages/Assistant.tsx:181 | Typing replaces the input and nothing else. |
| Assistant.ClickSuggestion | src/pages/Assistant.tsx:85-87 | A suggestion puts its question in the input and nothing else. |
| Assistant.EnterBypassesDisabledButton | src/pages/Assistant.tsx:183 | With a reply pending the button is disabled, yet Enter still appends a message. |
| Assistant.SendEnabledIff | src/pages/Assistant.tsx:188 | The button is enabled exactly when no reply is pending and a send would append a message. |
| Assistant.MatchedMeans | src/pages/Assistant.tsx:36-61 | When questions and replies are matched, the greeting is the first reply, the reply of rank i+1 answers question i, the timers are the unanswered questions in order, and twice the questions plus one equals the messages plus the timers. |
| Assistant.QuestionsRepliesCount | src/pages/Assistant.tsx:36-61 | Every message is either a question or a reply. |
| Assistant.AskKeeps | src/pages/Assistant.tsx:46-51 | A new question joins the end of the queue of unanswered questions, keeping the matching. |
| Assistant.AnswerKeeps | src/pages/Assistant.tsx:51-60 | Answering the oldest pending question moves it from the queue to the answered prefix, keeping the matching. |
| Assistant.PressKeeps | src/pages/Assistant.tsx:36-51 | Sending non-blank input keeps questions, replies and timers matched. |
| Assistant.FireKeeps | src/pages/Assistant.tsx:51-60 | The oldest timer firing keeps questions, replies and timers matched. |
| Assistant.StepKeeps | src/pages/Assistant.tsx:36-61 | One event keeps earlier messages in place and keeps questions, replies and timers matched first in, first out. |
| Assistant.RunKeeps | src/pages/Assistant.tsx:36-61 | Over any run of events, messages are only appended and questions, replies and timers stay matched first in, first out. |
| Assistant.GreetingStaysFirst | src/pages/Assistant.tsx:18-61 | From the first page, the greeting stays first whatever happens. Every later reply is the page's simulated answer to the question of the same rank, and the pending timers hold exactly the unanswered questions, oldest first. |
| Assistant.PressStep | src/pages/Assistant.tsx:36-51 | Sending non-blank input adds its question to the end of the timer queue. |
| Assistant.FireStep | src/pages/Assistant.tsx:51-60 | The oldest timer fires first and appends the page's simulated answer to its own captured question. |
| Assistant.PressWhilePending | src/pages/Assistant.tsx:183 | Pressing Enter while a reply is pending queues a second reply. |
| Assistant.LoadingClearedEarly | src/pages/Assistant.tsx:58-59 | With two replies pending, the first clears the loading flag though another reply is still to come. |
| Dashboard.SeverityTone | src/pages/Dashboard.tsx:67-75 | The severity badge is red, orange, yellow or green exactly when the lower-cased severity is critical, high, medium or low; otherwise it is gray. |
| Dashboard.SeverityColor | src/pages/Dashboard.tsx:67-75 | The class string returned names the severity's tone. |
| Dashboard.StatusTone | src/pages/Dashboard.tsx:77-85 | The status badge is green, blue, yellow or red exactly when the lower-cased status is resolved, in progress, under review or escalated; otherwise it is gray. |
| Dashboard.StatusColor | src/pages/Dashboard.tsx:77-85 | The class string returned names the status's tone. |
| Dashboard.ColorsCaseInsensitive | src/pages/Dashboard.tsx:67-85 | Both badge lookups ignore ASCII case. |
| Dashboard.ToneOfBadge | src/pages/Dashboard.tsx:67-85 | A class string is read as a tone only when it is exactly that tone's badge class. |
| Dashboard.ToneOfText | src/pages/Dashboard.tsx:133 | A class string is read as a tone only when it is exactly that tone's text class. |
| Dashboard.BadgeRoundTrip | src/pages/Dashboard.tsx:67-85 | Every badge class string can be read back as its tone. |
| Dashboard.BadgeClassInjective | src/pages/Dashboard.tsx:67-85 | Different tones have different badge classes. |
| Dashboard.NewReportBadge | src/pages/Dashboard.tsx:81 | A newly added report, with status "Under Review", shows the yellow badge. |
| Dashboard.ChangeTone | src/pages/Dashboard.tsx:133 | A change is green exactly when it starts with '+', red exactly when it starts with '-', and gray otherwise, including when empty. |
| Dashboard.ChangeColor | src/pages/Dashboard.tsx:133 | The class string returned names the change's tone. |
| Dashboard.TextRoundTrip | src/pages/Dashboard.tsx:133 | Every text class string can be read back as its tone. |
| Dashboard.StatColors | src/pages/Dashboard.tsx:11-14 | The page's changes +12%, +5% and +18% are green, and -2% is red. |
| Dashboard.TrendTone | src/pages/Dashboard.tsx:206-208 | A trend is red exactly when it is "↑", green exactly when it is "↓", and gray otherwise. |
| Dashboard.TrendColor | src/pages/Dashboard.tsx:206-208 | The class string returned names the trend's tone. |
| Dashboard.HotspotColors | src/pages/Dashboard.tsx:61-64 | The page's rising hotspots are red, the falling one green, and the level one gray. |

## Left out

- The completion service (the OpenAI client) is a function parameter. Its
  wording, latency and the system prompt's text are not modelled.
- The five canned answers, the greeting and the client's apology are opaque
  constants. Only which one is chosen matters.
- Lower-casing is ASCII-only. JavaScript's `toLowerCase` also folds
  non-ASCII letters. Every keyword and switch case in the code is ASCII,
  so only messages whose non-ASCII letters fold to ASCII could behave
  differently.
- `GetFallbackResponse` on a non-string message is left out. The handler
  checks only that `message` is truthy, so a truthy non-string such as `5`
  reaches the catch block when anything fails. There `toLowerCase` throws
  inside the catch, and no reply is sent at all. This is the one failure
  that does not become a fallback reply. The model types the message as a
  string.
- Timers are a first-in first-out queue, fired by explicit events. The
  1500 ms delay is the same for every timer, so they fire in the order they
  were set. Real time, React batching and re-rendering are not modelled.
- Clocks are parameters: a millisecond count and an opaque ISO-8601
  timestamp. The Dafny model does not produce ISO text itself.
- HTTP is modelled as an outcome value: a transport failure, or a status
  with a readable or unreadable body. Headers, JSON encoding and the
  `VITE_API_URL` base are left out.
- The export endpoint's 500 path is left out. The body it builds from fixed
  data cannot throw, so the path is unreachable.
- The browser download of the export (blob URL, link element) is left out.
  Only its file name is modelled.
- The endpoint's `Content-Type` and `Content-Disposition` headers are left
  out. The suggested name `mining-reports.csv` is not what the client saves:
  the client names the download itself (`Api.ExportFileName`).
- The health-check endpoint and `healthService` are outside the core.
- No lemma states the exact text of the exported CSV: it is a large
  literal. The model states that the exported records are the store's
  first three seed reports, and the rest of what it states about the
  export holds for any list of records.
- CsvExport.ExportCsv: it is not proved that its three inline records are
  exportable (no comma, quote or line break in a bare field, no quote in a
  wrapped one), so it is not proved that the export itself reads back. The
  round trip is proved only for exportable records in general. Checking each literal
  character by character is too costly for the verifier.
- `ReportsStore.GetReports` returns the list itself. In the code it is the
  store's live array, so a caller could mutate it; the immutable model
  cannot express that aliasing.
- `ChatServer.HandleChat`: a `message` that is truthy but not a string is
  not modelled. The message is an optional string, and truthiness is "not
  missing and not empty".
- `ChatServer.HandleChat`: a history element that is a primitive other
  than `null` or `undefined` (a number, say) is not modelled. Reading its
  fields gives `undefined` without throwing, and an entry's content is
  modelled as a string. `null` and `undefined` elements, which throw, are
  modelled.
- `ChatServer.HandleChat`: `isUser` is a boolean. The code tests its
  truthiness.
- Dashboard rendering (layout, icons, the list of recent reports) is left
  out beyond the colour rules.

=== FILE: api.dfy ===
/** The client's chat service and export file name. `sendMessage` posts the
    message with the last ten history entries and never fails: a transport
    error, a non-OK status or an unreadable body all turn into a fixed
    apology flagged as a fallback.

    The HTTP round trip is a function-typed parameter `fetch`, and the clock
    reading is an opaque ISO timestamp parameter.
 */
module Api {
  import opened Common
  import ChatServer
  import Fallback

  /** A chat message as the client keeps it. */
  datatype ChatMessage = ChatMessage(id: string, content: string, isUser: bool, timestamp: string)

  /** The JSON payload of a chat reply; a missing `fallback` is `false`. */
  datatype ChatResponse = ChatResponse(response: string, timestamp: string, fallback: bool)

  /** The JSON body `sendMessage` posts. */
  datatype ClientRequest = ClientRequest(message: string, conversationHistory: seq<ChatMessage>)

  /** What `fetch` yields: a transport failure, or a status with a body that
      reads as a chat reply (`Some`) or does not (`None`). */
  datatype HttpOutcome = NetworkError | HttpResponse(status: int, body: Option<ChatResponse>)

  /** `response.ok`: a status in the range 200 to 299. */
  predicate Ok(status: int)
  {
    200 <= status <= 299
  }

  const HistoryWindow: nat := 10
  const Apology: string := "[canned apology: the AI service cannot be reached]"

  /** `conversationHistory.slice(-10)`. */
  function TrimHistory(history: seq<ChatMessage>): (sent: seq<ChatMessage>)
    ensures |sent| <= HistoryWindow
    ensures |history| <= HistoryWindow ==> sent == history
    ensures |history| > HistoryWindow ==> |sent| == HistoryWindow
    ensures sent == history[|history| - |sent|..]
  {
    TakeLast(history, HistoryWindow)
  }

  /** The reply `sendMessage` resolves to, given what `fetch` yields. */
  function Resolve(outcome: HttpOutcome, now: string): (r: ChatResponse)
    ensures outcome.HttpResponse? && Ok(outcome.status) && outcome.body.Some? ==> r == outcome.body.value
    ensures !(outcome.HttpResponse? && Ok(outcome.status) && outcome.body.Some?) ==>
      r == ChatResponse(Apology, now, true)
  {
    match outcome
    case HttpResponse(status, Some(body)) =>
      if Ok(status) then body else ChatResponse(Apology, now, true)
    case _ => ChatResponse(Apology, now, true)
  }

  /** `chatService.sendMessage`: posts the message with the trimmed history
      and resolves whatever comes back. The history defaults to empty. */
  function SendMessage(message: string, history: seq<ChatMessage> := [],
                       fetch: ClientRequest -> HttpOutcome, now: string): (r: ChatResponse)
    ensures var outcome := fetch(ClientRequest(message, TrimHistory(history)));
      outcome.HttpResponse? && Ok(outcome.status) && outcome.body.Some? ==> r == outcome.body.value
    ensures var outcome := fetch(ClientRequest(message, TrimHistory(history)));
      !(outcome.HttpResponse? && Ok(outcome.status) && outcome.body.Some?) ==>
        r == ChatResponse(Apology, now, true)
  {
    Resolve(fetch(ClientRequest(message, TrimHistory(history))), now)
  }

  /** A call that omits the history posts the message with an empty
      history. */
  lemma OmittedHistoryPostsEmpty(message: string, fetch: ClientRequest -> HttpOutcome, now: string)
    ensures var outcome := fetch(ClientRequest(message, []));
      SendMessage(message, fetch := fetch, now := now)
        == if outcome.HttpResponse? && Ok(outcome.status) && outcome.body.Some?
           then outcome.body.value else ChatResponse(Apology, now, true)
  {
  }

  /** A non-OK status is handled exactly like a transport failure, whatever
      its body. */
  lemma NonOkIsNetworkError(status: int, body: Option<ChatResponse>, now: string)
    requires !Ok(status)
    ensures Resolve(HttpResponse(status, body), now) == Resolve(NetworkError, now)
  {
  }

  /** Only the last ten entries of the history ever leave the client, so two
      histories with the same last ten entries send the same request. */
  lemma SameWindowSameRequest(message: string, h1: seq<ChatMessage>, h2: seq<ChatMessage>,
                              fetch: ClientRequest -> HttpOutcome, now: string)
    requires |h1| >= HistoryWindow && |h2| >= HistoryWindow
    requires h1[|h1| - HistoryWindow..] == h2[|h2| - HistoryWindow..]
    ensures SendMessage(message, h1, fetch, now) == SendMessage(message, h2, fetch, now)
  {
  }

  // ---------------------------------------------------------------------
  // The client talking to this repository's server
  // ---------------------------------------------------------------------

  /** The two fields of a message the server reads. */
  function ToEntry(m: ChatMessage): ChatServer.HistoryEntry
  {
    ChatServer.HistoryEntry(m.content, m.isUser)
  }

  /** The history as it arrives at the server: never a `null` element. */
  function ToEntries(history: seq<ChatMessage>): (items: seq<ChatServer.HistoryItem>)
    ensures |items| == |history|
    ensures forall i :: 0 <= i < |history| ==> items[i] == ChatServer.Present(ToEntry(history[i]))
  {
    if history == [] then [] else [ChatServer.Present(ToEntry(history[0]))] + ToEntries(history[1..])
  }

  /** The server's handler seen through HTTP: a 400 has a body that is not a
      chat reply; any answer is a 200 with the reply. */
  function ServerFetch(service: ChatServer.CompletionRequest -> ChatServer.CompletionOutcome,
                       serverNow: string, request: ClientRequest): (outcome: HttpOutcome)
    ensures outcome.HttpResponse?
  {
    var body := ChatServer.ChatBody(Some(request.message), ChatServer.Entries(ToEntries(request.conversationHistory)));
    var x := ChatServer.HandleChat(body, service, serverNow);
    match x.reply
    case BadRequest(_) => HttpResponse(400, None)
    case Answered(response, timestamp, fallback) => HttpResponse(200, Some(ChatResponse(response, timestamp, fallback)))
  }

  /** An empty message is refused by the server and the client shows the
      apology. */
  lemma EmptyMessageGetsApology(history: seq<ChatMessage>,
                                service: ChatServer.CompletionRequest -> ChatServer.CompletionOutcome,
                                serverNow: string, now: string)
    ensures SendMessage("", history, r => ServerFetch(service, serverNow, r), now)
      == ChatResponse(Apology, now, true)
  {
  }

  /** With the completion service down, a non-empty message gets the
      server's keyword answer, flagged as a fallback, never the apology. */
  lemma ServiceDownGetsKeywordAnswer(message: string, history: seq<ChatMessage>,
                                     service: ChatServer.CompletionRequest -> ChatServer.CompletionOutcome,
                                     serverNow: string, now: string)
    requires message != ""
    requires forall req :: service(req) == ChatServer.Failed
    ensures var r := SendMessage(message, history, req => ServerFetch(service, serverNow, req), now);
      && r == ChatResponse(Fallback.GetFallbackResponse(message), serverNow, true)
      && r.response != Apology
  {
    var r := SendMessage(message, history, req => ServerFetch(service, serverNow, req), now);
    assert r == ChatResponse(Fallback.GetFallbackResponse(message), serverNow, true);
    ApologyIsNoAnswer(r.response);
  }

  /** The apology is none of the canned topic answers. */
  lemma ApologyIsNoAnswer(answer: string)
    requires answer in Fallback.Answers
    ensures answer != Apology
  {
  }

  /** End to end, the completion service sees at most twelve messages: the
      system prompt, at most ten history entries, and the new message. */
  lemma CompletionSeesAtMostTwelve(message: string, history: seq<ChatMessage>,
                                   service: ChatServer.CompletionRequest -> ChatServer.CompletionOutcome,
                                   serverNow: string)
    requires message != ""
    ensures var body := ChatServer.ChatBody(Some(message), ChatServer.Entries(ToEntries(TrimHistory(history))));
      var x := ChatServer.HandleChat(body, service, serverNow);
      x.request.Some? && |x.request.value.messages| <= HistoryWindow + 2
      && (|history| <= HistoryWindow ==> |x.request.value.messages| == |history| + 2)
  {
    var sent := TrimHistory(history);
    var body := ChatServer.ChatBody(Some(message), ChatServer.Entries(ToEntries(sent)));
    assert ChatServer.Truthy(body.message);
    assert |ChatServer.HistoryOf(body)| == |sent|;
  }

  // ---------------------------------------------------------------------
  // Export file name
  // ---------------------------------------------------------------------

  const ExportPrefix: string := "mining-reports-"
  const ExportSuffix: string := ".csv"

  /** The date part of an ISO timestamp: `split('T')[0]`. */
  function DatePart(iso: string): (d: string)
    ensures d <= iso && 'T' !in d
    ensures |d| < |iso| ==> iso[|d|] == 'T'
  {
    BeforeFirst(iso, 'T')
  }

  /** The download name, `mining-reports-<date>.csv`. */
  function ExportFileName(isoNow: string): (name: string)
    ensures |name| == |ExportPrefix| + |DatePart(isoNow)| + |ExportSuffix|
    ensures name[..|ExportPrefix|] == ExportPrefix
    ensures name[|ExportPrefix|..|name| - |ExportSuffix|] == DatePart(isoNow)
    ensures name[|name| - |ExportSuffix|..] == ExportSuffix
  {
    ExportPrefix + DatePart(isoNow) + ExportSuffix
  }

  /** A timestamp shaped like `toISOString()` output (ten characters of
      date, then 'T') names the file after its first ten characters. */
  lemma ExportFileNameOfIso(isoNow: string)
    requires |isoNow| > 10 && isoNow[10] == 'T' && 'T' !in isoNow[..10]
    ensures ExportFileName(isoNow) == ExportPrefix + isoNow[..10] + ExportSuffix
  {
    var d := DatePart(isoNow);
    assert d == isoNow[..10];
  }
}

=== FILE: assistant.dfy ===
/** The assistant page's conversation state: an append-only list of
    messages, the text in the input box, and a loading flag.

    Sending appends the user's message at once and schedules the reply,
    which a timer appends later; the reply comes from the page's own copy of
    the keyword responder. The timers all have the same delay, so they fire
    in the order they were set. Clock readings are parameters: a
    millisecond count for message identifiers and an opaque timestamp.
 */
module Assistant {
  import opened Common
  import Fallback

  datatype Message = Message(id: string, content: string, isUser: bool, timestamp: string)

  datatype Conversation = Conversation(messages: seq<Message>, input: string, loading: bool)

  const Greeting: string := "[canned greeting: what the assistant can help with]"

  /** The suggested questions, each written in two pieces. */
  const Suggestions: seq<string> := [
    "What are my rights as a community " + "member near mining operations?",
    "How do I report water " + "pollution from mining activities?",
    "What compensation can I claim " + "for property damage from blasting?",
    "What environmental standards must " + "mining companies follow in Ghana?"
  ]

  /** The page as first shown: one greeting from the assistant. */
  function InitialConversation(now: string): (c: Conversation)
    ensures |c.messages| == 1 && !c.messages[0].isUser
    ensures c.messages[0].content == Greeting && c.messages[0].id == "1"
    ensures c.input == [] && !c.loading
  {
    Conversation([Message("1", Greeting, false, now)], [], false)
  }

  /** `getSimulatedResponse`: the page's own copy of the keyword ladder. */
  function SimulatedResponse(question: string): (r: string)
    ensures r == Fallback.GetFallbackResponse(question)
  {
    Fallback.SelectTopicIsFirstMatch(question);
    var q := Lower(question);
    if Contains(q, "rights") || Contains(q, "right") then Fallback.RightsText
    else if Contains(q, "water") || Contains(q, "pollution") then Fallback.PollutionText
    else if Contains(q, "compensation") || Contains(q, "damage") then Fallback.CompensationText
    else if Contains(q, "environmental") || Contains(q, "standard") then Fallback.StandardsText
    else Fallback.GeneralText
  }

  /** The simulated reply ignores ASCII case. */
  lemma SimulatedResponseCaseInsensitive(question: string)
    ensures SimulatedResponse(question) == SimulatedResponse(Lower(question))
  {
    Fallback.FallbackCaseInsensitive(question);
  }

  /** Each suggested question gets its own answer: rights, pollution,
      compensation and standards, in that order. */
  lemma SuggestionAnswers()
    ensures SimulatedResponse(Suggestions[0]) == Fallback.RightsText
    ensures SimulatedResponse(Suggestions[1]) == Fallback.PollutionText
    ensures SimulatedResponse(Suggestions[2]) == Fallback.CompensationText
    ensures SimulatedResponse(Suggestions[3]) == Fallback.StandardsText
  {
    SuggestionAnswer(0, Fallback.Rights);
    SuggestionAnswer(1, Fallback.Pollution);
    SuggestionAnswer(2, Fallback.Compensation);
    SuggestionAnswer(3, Fallback.Standards);
  }

  lemma SuggestionAnswer(i: nat, t: Fallback.Topic)
    requires i < |Suggestions|
    requires t == [Fallback.Rights, Fallback.Pollution, Fallback.Compensation, Fallback.Standards][i]
    ensures SimulatedResponse(Suggestions[i]) == Fallback.Text(t)
  {
    var m := Suggestions[i];
    Fallback.SelectTopicIsFirstMatch(m);
    if i == 0 {
      Fallback.RightsExample(m);
    } else if i == 1 {
      Fallback.PollutionExample(m);
    } else if i == 2 {
      Fallback.CompensationExample(m);
    } else {
      Fallback.StandardsExample(m);
    }
  }

  /** The send button is disabled while a reply is pending or the input is
      blank. */
  predicate SendDisabled(c: Conversation)
  {
    c.loading || Trim(c.input) == []
  }

  /** What a send leaves behind: the new state and, if a reply was
      scheduled, the question the timer will answer. */
  datatype SendOutcome = SendOutcome(conversation: Conversation, scheduled: Option<string>)

  /** `handleSendMessage`. Blank input is ignored. Otherwise the raw input
      is appended as the user's message, the box is cleared, loading is set
      and a reply to that input is scheduled. The loading flag is not
      consulted: the Enter key calls the handler even while the button is
      disabled. */
  function Send(c: Conversation, clockMs: nat, now: string): (r: SendOutcome)
    ensures Trim(c.input) == [] ==> r == SendOutcome(c, None)
    ensures Trim(c.input) != [] ==>
      && r.conversation.messages == c.messages + [Message(Decimal(clockMs), c.input, true, now)]
      && r.conversation.input == []
      && r.conversation.loading
      && r.scheduled == Some(c.input)
  {
    if Trim(c.input) == [] then SendOutcome(c, None)
    else
      var userMessage := Message(Decimal(clockMs), c.input, true, now);
      SendOutcome(Conversation(c.messages + [userMessage], [], true), Some(c.input))
  }

  /** The timer firing: the answer to the captured question is appended as
      the assistant's, with the identifier one past the clock, and loading
      is cleared whether or not other replies are pending. */
  function DeliverReply(c: Conversation, answer: string, clockMs: nat, now: string): (r: Conversation)
    ensures r.messages == c.messages + [Message(Decimal(clockMs + 1), answer, false, now)]
    ensures r.input == c.input && !r.loading
  {
    var reply := Message(Decimal(clockMs + 1), answer, false, now);
    Conversation(c.messages + [reply], c.input, false)
  }

  /** Typing into the box. */
  function SetInput(c: Conversation, text: string): (r: Conversation)
    ensures r.messages == c.messages && r.loading == c.loading && r.input == text
  {
    c.(input := text)
  }

  /** Clicking a suggestion puts its text in the box. */
  function ClickSuggestion(c: Conversation, i: nat): (r: Conversation)
    requires i < |Suggestions|
    ensures r.messages == c.messages && r.loading == c.loading && r.input == Suggestions[i]
  {
    SetInput(c, Suggestions[i])
  }

  /** The Enter key sends even while the button is disabled for a pending
      reply. */
  lemma EnterBypassesDisabledButton(c: Conversation, clockMs: nat, now: string)
    requires c.loading && Trim(c.input) != []
    ensures SendDisabled(c)
    ensures |Send(c, clockMs, now).conversation.messages| == |c.messages| + 1
  {
  }

  /** The button is enabled exactly when a send would append a message and
      no reply is pending. */
  lemma SendEnabledIff(c: Conversation, clockMs: nat, now: string)
    ensures !SendDisabled(c) <==>
      !c.loading && |Send(c, clockMs, now).conversation.messages| == |c.messages| + 1
  {
  }

  // ---------------------------------------------------------------------
  // Runs of events
  // ---------------------------------------------------------------------

  datatype Event =
    | Type(text: string)
    | Suggest(index: nat)
    | Press(clockMs: nat, now: string)
    | Fire(clockMs: nat, now: string)

  /** The page and its pending timers, oldest first. Each timer holds the
      question it will answer. */
  datatype Session = Session(conversation: Conversation, timers: seq<string>)

  /** One event. A firing timer answers its question with `respond`; the
      page's responder is `SimulatedResponse`, and the facts below hold for
      any responder. */
  function Step(s: Session, e: Event, respond: string -> string): (r: Session)
  {
    match e
    case Type(text) => Session(SetInput(s.conversation, text), s.timers)
    case Suggest(i) =>
      if i < |Suggestions| then Session(ClickSuggestion(s.conversation, i), s.timers) else s
    case Press(clockMs, now) =>
      var out := Send(s.conversation, clockMs, now);
      if out.scheduled.None? then s
      else Session(out.conversation, s.timers + [out.scheduled.value])
    case Fire(clockMs, now) =>
      if s.timers == [] then s
      else Session(DeliverReply(s.conversation, respond(s.timers[0]), clockMs, now), s.timers[1..])
  }

  function Run(s: Session, events: seq<Event>, respond: string -> string): Session
    decreases |events|
  {
    if events == [] then s else Run(Step(s, events[0], respond), events[1..], respond)
  }

  /** The user's questions, in the order they were sent. */
  function Questions(ms: seq<Message>): (qs: seq<string>)
    ensures |qs| <= |ms|
  {
    if ms == [] then []
    else Questions(ms[..|ms| - 1]) + (if ms[|ms| - 1].isUser then [ms[|ms| - 1].content] else [])
  }

  /** The assistant's messages, in order. */
  function Replies(ms: seq<Message>): seq<string>
  {
    if ms == [] then []
    else Replies(ms[..|ms| - 1]) + (if ms[|ms| - 1].isUser then [] else [ms[|ms| - 1].content])
  }

  /** The answer to each question, in order. */
  function AnswersTo(qs: seq<string>, respond: string -> string): (rs: seq<string>)
    ensures |rs| == |qs|
  {
    if qs == [] then [] else AnswersTo(qs[..|qs| - 1], respond) + [respond(qs[|qs| - 1])]
  }

  lemma {:induction false} AnswersToAt(qs: seq<string>, respond: string -> string, i: nat)
    requires i < |qs|
    ensures AnswersTo(qs, respond)[i] == respond(qs[i])
  {
    if i < |qs| - 1 {
      AnswersToAt(qs[..|qs| - 1], respond, i);
    }
  }

  /** Questions and replies are matched first in, first out: the pending
      timers hold exactly the questions not yet answered, oldest first, and
      after the greeting the replies are the answers to the other questions,
      in the order they were asked. */
  predicate Matched(s: Session, respond: string -> string)
  {
    MatchedParts(Questions(s.conversation.messages), Replies(s.conversation.messages), s.timers, respond)
  }

  predicate MatchedParts(qs: seq<string>, rs: seq<string>, timers: seq<string>, respond: string -> string)
  {
    && |timers| <= |qs|
    && qs[|qs| - |timers|..] == timers
    && rs == [Greeting] + AnswersTo(qs[..|qs| - |timers|], respond)
  }

  lemma QuestionsRepliesAppend(ms: seq<Message>, m: Message)
    ensures Questions(ms + [m]) == Questions(ms) + (if m.isUser then [m.content] else [])
    ensures Replies(ms + [m]) == Replies(ms) + (if m.isUser then [] else [m.content])
  {
    assert (ms + [m])[..|ms|] == ms;
  }

  /** Every message is a question or a reply. */
  lemma {:induction false} QuestionsRepliesCount(ms: seq<Message>)
    ensures |Questions(ms)| + |Replies(ms)| == |ms|
  {
    if ms != [] {
      QuestionsRepliesCount(ms[..|ms| - 1]);
    }
  }

  /** What matching means, spelled out: the greeting comes first, each
      later reply answers the question of the same rank, the timers hold
      the unanswered questions in order, and so every question has either a
      reply or a timer. */
  lemma MatchedMeans(s: Session, respond: string -> string)
    requires Matched(s, respond)
    ensures var ms := s.conversation.messages; var qs := Questions(ms); var rs := Replies(ms);
      && |rs| == |qs| - |s.timers| + 1
      && rs[0] == Greeting
      && (forall i :: 0 <= i < |rs| - 1 ==> rs[i + 1] == respond(qs[i]))
      && (forall j :: 0 <= j < |s.timers| ==> s.timers[j] == qs[|rs| - 1 + j])
      && 2 * |qs| + 1 == |ms| + |s.timers|
  {
    var ms := s.conversation.messages;
    var qs := Questions(ms);
    var rs := Replies(ms);
    var k := |qs| - |s.timers|;
    QuestionsRepliesCount(ms);
    forall i | 0 <= i < |rs| - 1
      ensures rs[i + 1] == respond(qs[i])
    {
      assert rs[i + 1] == AnswersTo(qs[..k], respond)[i];
      AnswersToAt(qs[..k], respond, i);
    }
    forall j | 0 <= j < |s.timers|
      ensures s.timers[j] == qs[|rs| - 1 + j]
    {
      assert s.timers[j] == qs[k..][j];
    }
  }

  /** A new question joins the end of the queue. */
  lemma AskKeeps(qs: seq<string>, rs: seq<string>, timers: seq<string>, q: string, respond: string -> string)
    requires MatchedParts(qs, rs, timers, respond)
    ensures MatchedParts(qs + [q], rs, timers + [q], respond)
  {
    var k := |qs| - |timers|;
    assert (qs + [q])[..k] == qs[..k];
    assert (qs + [q])[k..] == qs[k..] + [q];
  }

  /** Answering the oldest pending question moves it from the queue to the
      answered prefix. */
  lemma AnswerKeeps(qs: seq<string>, rs: seq<string>, timers: seq<string>, respond: string -> string)
    requires MatchedParts(qs, rs, timers, respond) && timers != []
    ensures MatchedParts(qs, rs + [respond(timers[0])], timers[1..], respond)
  {
    var k := |qs| - |timers|;
    assert qs[k] == timers[0] by {
      assert qs[k..][0] == timers[0];
    }
    assert qs[..k + 1][..k] == qs[..k];
    assert AnswersTo(qs[..k + 1], respond) == AnswersTo(qs[..k], respond) + [respond(timers[0])];
    assert qs[k + 1..] == qs[k..][1..];
  }

  /** Sending a question queues a timer for it. */
  lemma PressKeeps(s: Session, clockMs: nat, now: string, respond: string -> string)
    requires Matched(s, respond) && Trim(s.conversation.input) != []
    ensures Matched(Step(s, Press(clockMs, now), respond), respond)
  {
    var ms := s.conversation.messages;
    var input := s.conversation.input;
    var r := Step(s, Press(clockMs, now), respond);
    var m := Message(Decimal(clockMs), input, true, now);
    assert r.conversation.messages == ms + [m];
    assert r.timers == s.timers + [input];
    QuestionsRepliesAppend(ms, m);
    AskKeeps(Questions(ms), Replies(ms), s.timers, input, respond);
  }

  /** The oldest timer answers the oldest unanswered question. */
  lemma FireKeeps(s: Session, clockMs: nat, now: string, respond: string -> string)
    requires Matched(s, respond) && s.timers != []
    ensures Matched(Step(s, Fire(clockMs, now), respond), respond)
  {
    var ms := s.conversation.messages;
    var r := Step(s, Fire(clockMs, now), respond);
    var m := Message(Decimal(clockMs + 1), respond(s.timers[0]), false, now);
    assert r.conversation.messages == ms + [m];
    assert r.timers == s.timers[1..];
    QuestionsRepliesAppend(ms, m);
    assert Questions(ms + [m]) == Questions(ms);
    AnswerKeeps(Questions(ms), Replies(ms), s.timers, respond);
  }

  /** One event keeps the earlier messages in place and questions matched
      with replies and timers. */
  lemma StepKeeps(s: Session, e: Event, respond: string -> string)
    requires Matched(s, respond)
    ensures var r := Step(s, e, respond);
      && |r.conversation.messages| >= |s.conversation.messages|
      && r.conversation.messages[..|s.conversation.messages|] == s.conversation.messages
      && Matched(r, respond)
  {
    var ms := s.conversation.messages;
    var r := Step(s, e, respond);
    match e
    case Type(_) =>
    case Suggest(_) =>
    case Press(clockMs, now) =>
      if Trim(s.conversation.input) != [] {
        PressKeeps(s, clockMs, now, respond);
      }
    case Fire(clockMs, now) =>
      if s.timers != [] {
        FireKeeps(s, clockMs, now, respond);
      }
    assert r.conversation.messages[..|ms|] == ms;
  }

  /** Over any run the message list only grows, earlier messages stay where
      they were, and questions stay matched with replies and timers. */
  lemma {:induction false} RunKeeps(s: Session, events: seq<Event>, respond: string -> string)
    requires Matched(s, respond)
    ensures var r := Run(s, events, respond);
      && |r.conversation.messages| >= |s.conversation.messages|
      && r.conversation.messages[..|s.conversation.messages|] == s.conversation.messages
      && Matched(r, respond)
    decreases |events|
  {
    if events != [] {
      var s1 := Step(s, events[0], respond);
      StepKeeps(s, events[0], respond);
      RunKeeps(s1, events[1..], respond);
      var r := Run(s1, events[1..], respond);
      assert r.conversation.messages[..|s.conversation.messages|]
        == r.conversation.messages[..|s1.conversation.messages|][..|s.conversation.messages|];
    }
  }

  /** From the first page, the greeting stays first whatever happens, every
      reply after it is the page's simulated answer to the question of the
      same rank, and the pending timers hold exactly the unanswered
      questions, oldest first. */
  lemma GreetingStaysFirst(now: string, events: seq<Event>)
    ensures var r := Run(Session(InitialConversation(now), []), events, SimulatedResponse);
      && |r.conversation.messages| >= 1
      && r.conversation.messages[0] == Message("1", Greeting, false, now)
      && Matched(r, SimulatedResponse)
  {
    var s := Session(InitialConversation(now), []);
    assert s.conversation.messages[..0] == [];
    assert Questions(s.conversation.messages) == [];
    assert Replies(s.conversation.messages) == [Greeting];
    RunKeeps(s, events, SimulatedResponse);
    var r := Run(s, events, SimulatedResponse);
    assert r.conversation.messages[0] == r.conversation.messages[..1][0];
  }

  lemma PressStep(s: Session, clockMs: nat, now: string, respond: string -> string)
    requires Trim(s.conversation.input) != []
    ensures Step(s, Press(clockMs, now), respond)
      == Session(Send(s.conversation, clockMs, now).conversation, s.timers + [s.conversation.input])
  {
  }

  lemma FireStep(s: Session, clockMs: nat, now: string)
    requires s.timers != []
    ensures Step(s, Fire(clockMs, now), SimulatedResponse)
      == Session(DeliverReply(s.conversation, SimulatedResponse(s.timers[0]), clockMs, now), s.timers[1..])
  {
  }

  /** Pressing Enter while a reply is pending schedules a second one. */
  lemma PressWhilePending(s: Session, clockMs: nat, now: string, respond: string -> string)
    requires s.conversation.loading && Trim(s.conversation.input) != [] && s.timers != []
    ensures |Step(s, Press(clockMs, now), respond).timers| >= 2
    ensures Step(s, Press(clockMs, now), respond).conversation.loading
  {
    PressStep(s, clockMs, now, respond);
  }

  /** The first of several pending replies clears the loading flag, though
      another reply is still to come. */
  lemma LoadingClearedEarly(s: Session, clockMs: nat, now: string, respond: string -> string)
    requires |s.timers| >= 2
    ensures var r := Step(s, Fire(clockMs, now), respond);
      !r.conversation.loading && r.timers == s.timers[1..] && r.timers != []
  {
  }
}

=== FILE: chat_server.dfy ===
/** The `/api/chat` endpoint of the server: it validates the request body,
    wraps the conversation in a completion request, and answers either with
    the completion's text or, when anything fails, with the keyword
    responder's answer flagged as a fallback.

    The completion service is a function-typed parameter, the clock reading
    is an opaque ISO timestamp parameter, and the system prompt is an opaque
    constant.
 */
module ChatServer {
  import opened Common
  import Fallback

  datatype Role = System | User | Assistant

  /** One entry of the completion request's message list. */
  datatype CompletionMessage = CompletionMessage(role: Role, content: string)

  /** The two fields of a history entry the server reads. */
  datatype HistoryEntry = HistoryEntry(content: string, isUser: bool)

  /** One element of the history list: an entry, or `null`/`undefined`,
      whose `isUser` cannot be read. */
  datatype HistoryItem = Present(entry: HistoryEntry) | Nullish

  /** The `conversationHistory` field of the body: missing (it then defaults
      to the empty list), a list, or some other value, on which mapping the
      entries throws. */
  datatype HistoryField = Absent | Entries(items: seq<HistoryItem>) | NotAList

  /** Building the message list throws: the field is not a list, or one of
      its elements is `null` or `undefined`. */
  predicate MappingThrows(h: HistoryField)
  {
    || h.NotAList?
    || (h.Entries? && exists i :: 0 <= i < |h.items| && h.items[i].Nullish?)
  }

  /** The request body; a missing `message` is `None`. */
  datatype ChatBody = ChatBody(message: Option<string>, conversationHistory: HistoryField)

  const MiningContext: string := "[system prompt: Ghana mining law knowledge base]"
  const CompletionModel: string := "gpt-3.5-turbo"
  const MaxTokens: nat := 500
  const Temperature: real := 0.7
  const MessageRequired: string := "Message is required"

  datatype CompletionRequest = CompletionRequest(
    model: string,
    messages: seq<CompletionMessage>,
    maxTokens: nat,
    temperature: real)

  /** What the completion service gives back: the texts of its choices, or a
      failure. An empty list of choices makes reading the first one throw. */
  datatype CompletionOutcome = Completed(choices: seq<string>) | Failed

  /** The reply. A successful completion's JSON has no `fallback` field; it
      is `false` here. */
  datatype ChatReply =
    | BadRequest(error: string)
    | Answered(response: string, timestamp: string, fallback: bool)

  function Status(r: ChatReply): nat
  {
    if r.BadRequest? then 400 else 200
  }

  /** What one call of the handler does: the completion request it sends,
      if any, and the reply. */
  datatype ChatExchange = ChatExchange(request: Option<CompletionRequest>, reply: ChatReply)

  /** JavaScript truthiness of the `message` field, for string values. */
  predicate Truthy(message: Option<string>)
  {
    message.Some? && message.value != ""
  }

  function RoleOf(e: HistoryEntry): Role
  {
    if e.isUser then User else Assistant
  }

  /** Each history entry tagged with its role, in order. */
  function TagHistory(history: seq<HistoryEntry>): (ms: seq<CompletionMessage>)
    ensures |ms| == |history|
    ensures forall i :: 0 <= i < |history| ==>
      ms[i] == CompletionMessage(RoleOf(history[i]), history[i].content)
  {
    if history == [] then []
    else [CompletionMessage(RoleOf(history[0]), history[0].content)] + TagHistory(history[1..])
  }

  /** The message list: the system prompt, the whole history in order, then
      the new message from the user. Nothing is trimmed here. */
  function BuildMessages(history: seq<HistoryEntry>, message: string): (ms: seq<CompletionMessage>)
    ensures |ms| == |history| + 2
    ensures ms[0] == CompletionMessage(System, MiningContext)
    ensures forall i :: 0 <= i < |history| ==>
      ms[i + 1] == CompletionMessage(RoleOf(history[i]), history[i].content)
    ensures ms[|ms| - 1] == CompletionMessage(User, message)
  {
    [CompletionMessage(System, MiningContext)] + TagHistory(history) + [CompletionMessage(User, message)]
  }

  /** Reads a history back from tagged messages: the inverse of tagging. */
  function UntagHistory(ms: seq<CompletionMessage>): (history: seq<HistoryEntry>)
    ensures |history| == |ms|
  {
    if ms == [] then []
    else [HistoryEntry(ms[0].content, ms[0].role == User)] + UntagHistory(ms[1..])
  }

  /** The message list loses nothing: the history and the new message can be
      read back from it. */
  lemma {:induction false} BuildMessagesRoundTrip(history: seq<HistoryEntry>, message: string)
    ensures var ms := BuildMessages(history, message);
      UntagHistory(ms[1..|ms| - 1]) == history && ms[|ms| - 1].content == message
  {
    var ms := BuildMessages(history, message);
    UntagTag(history);
    assert ms[1..|ms| - 1] == TagHistory(history);
  }

  lemma {:induction false} UntagTag(history: seq<HistoryEntry>)
    ensures UntagHistory(TagHistory(history)) == history
  {
    if history != [] {
      var ms := TagHistory(history);
      assert ms[1..] == TagHistory(history[1..]);
      UntagTag(history[1..]);
    }
  }

  function RequestFor(history: seq<HistoryEntry>, message: string): CompletionRequest
  {
    CompletionRequest(CompletionModel, BuildMessages(history, message), MaxTokens, Temperature)
  }

  /** The handler. A falsy message is refused with 400 before anything is
      sent. A history that is not a list or holds a `null` element, a failed
      completion and an answer without choices all land in the catch block,
      which answers with the keyword responder. */
  function HandleChat(body: ChatBody, service: CompletionRequest -> CompletionOutcome, now: string)
    : (x: ChatExchange)
    ensures Status(x.reply) == 400 <==> !Truthy(body.message)
    ensures x.reply.BadRequest? ==> x.reply.error == MessageRequired && x.request == None
    ensures x.request.Some? <==> Truthy(body.message) && !MappingThrows(body.conversationHistory)
    ensures x.request.Some? ==> |x.request.value.messages| == |HistoryOf(body)| + 2
    ensures x.reply.Answered? ==> x.reply.timestamp == now
    ensures x.reply.Answered? && x.reply.fallback ==>
      x.reply.response == Fallback.GetFallbackResponse(body.message.value)
      && x.reply.response in Fallback.Answers
    ensures x.reply.Answered? && !x.reply.fallback ==>
      x.request.Some? && service(x.request.value).Completed?
      && |service(x.request.value).choices| > 0
      && x.reply.response == service(x.request.value).choices[0]
  {
    if !Truthy(body.message) then
      ChatExchange(None, BadRequest(MessageRequired))
    else
      var message := body.message.value;
      var fallback := Answered(Fallback.GetFallbackResponse(message), now, true);
      if MappingThrows(body.conversationHistory) then
        ChatExchange(None, fallback)
      else
        var request := RequestFor(HistoryOf(body), message);
        var outcome := service(request);
        if outcome.Completed? && |outcome.choices| > 0 then
          ChatExchange(Some(request), Answered(outcome.choices[0], now, false))
        else
          ChatExchange(Some(request), fallback)
  }

  /** The history the handler works with, when mapping it does not throw:
      a missing field defaults to the empty list. */
  function HistoryOf(body: ChatBody): (history: seq<HistoryEntry>)
    requires !MappingThrows(body.conversationHistory)
    ensures body.conversationHistory.Entries? ==>
      && |history| == |body.conversationHistory.items|
      && forall i :: 0 <= i < |history| ==> body.conversationHistory.items[i] == Present(history[i])
    ensures body.conversationHistory.Absent? ==> history == []
  {
    match body.conversationHistory
    case Entries(items) => seq(|items|, i requires 0 <= i < |items| => items[i].entry)
    case Absent => []
  }

  /** The request the handler sends carries the system prompt, the whole
      history in order and the message, with the fixed model parameters. */
  lemma RequestContents(body: ChatBody, service: CompletionRequest -> CompletionOutcome, now: string)
    requires Truthy(body.message) && !MappingThrows(body.conversationHistory)
    ensures var x := HandleChat(body, service, now);
      && x.request == Some(RequestFor(HistoryOf(body), body.message.value))
      && x.request.value.model == CompletionModel
      && x.request.value.maxTokens == MaxTokens
      && x.request.value.temperature == Temperature
  {
  }

  /** Failure never surfaces as an error status: for a truthy message the
      reply is a fallback exactly when mapping the history threw, or the
      service failed or gave no choice. */
  lemma FallbackIffFailure(body: ChatBody, service: CompletionRequest -> CompletionOutcome, now: string)
    requires Truthy(body.message)
    ensures var x := HandleChat(body, service, now);
      && Status(x.reply) == 200
      && (x.reply.fallback <==>
            MappingThrows(body.conversationHistory)
            || !(service(RequestFor(HistoryOf(body), body.message.value)).Completed?
                 && |service(RequestFor(HistoryOf(body), body.message.value)).choices| > 0))
  {
  }

  /** The server keeps every history entry it is given: any trimming is the
      client's doing. */
  lemma NoServerTrimming(entries: seq<HistoryEntry>, message: string,
                         service: CompletionRequest -> CompletionOutcome, now: string)
    requires message != ""
    ensures var x := HandleChat(ChatBody(Some(message), Entries(Wrap(entries))), service, now);
      x.request.Some? && |x.request.value.messages| == |entries| + 2
      && UntagHistory(x.request.value.messages[1..|entries| + 1]) == entries
  {
    HistoryOfWrap(Some(message), entries);
    BuildMessagesRoundTrip(entries, message);
  }

  /** Wrapping entries as history elements and reading them back gives the
      entries. */
  lemma HistoryOfWrap(message: Option<string>, entries: seq<HistoryEntry>)
    ensures var body := ChatBody(message, Entries(Wrap(entries)));
      !MappingThrows(body.conversationHistory) && HistoryOf(body) == entries
  {
    var body := ChatBody(message, Entries(Wrap(entries)));
    assert !MappingThrows(body.conversationHistory);
    assert HistoryOf(body) == entries;
  }

  /** A history list of entries, none of them `null`. */
  function Wrap(entries: seq<HistoryEntry>): (items: seq<HistoryItem>)
    ensures |items| == |entries|
    ensures forall i :: 0 <= i < |entries| ==> items[i] == Present(entries[i])
  {
    if entries == [] then [] else [Present(entries[0])] + Wrap(entries[1..])
  }

  /** A `null` element anywhere in the history makes the handler answer
      with the keyword responder before any request is sent, whatever the
      completion service would have said. */
  lemma NullEntryFallsBack(message: string, before: seq<HistoryEntry>, after: seq<HistoryEntry>,
                           service: CompletionRequest -> CompletionOutcome, now: string)
    requires message != ""
    ensures var x := HandleChat(ChatBody(Some(message), Entries(Wrap(before) + [Nullish] + Wrap(after))), service, now);
      && x.request == None
      && x.reply == Answered(Fallback.GetFallbackResponse(message), now, true)
  {
    var items := Wrap(before) + [Nullish] + Wrap(after);
    assert items[|before|].Nullish?;
  }
}

=== FILE: common.dfy ===
/** String and option helpers shared by every part of the model.

    JavaScript strings are modelled as `seq<char>`. Only the pieces of the
    JavaScript string library the application uses are defined here:
    `toLowerCase` (restricted to ASCII), `includes`, `startsWith`, `trim`,
    `split(c)[0]`, `slice(-k)`, `join` and `String(n)` on a non-negative
    integer.
 */
module Common {

  datatype Option<+T> = None | Some(value: T)

  // ---------------------------------------------------------------------
  // Case folding (ASCII part of String.prototype.toLowerCase)
  // ---------------------------------------------------------------------

  function LowerChar(c: char): char
  {
    if 'A' <= c <= 'Z' then ('a' as int + (c as int - 'A' as int)) as char else c
  }

  /** `s.toLowerCase()`, folding only the ASCII letters A-Z. */
  function Lower(s: string): (r: string)
    ensures |r| == |s|
    ensures forall i :: 0 <= i < |s| ==> r[i] == LowerChar(s[i])
  {
    if s == [] then [] else [LowerChar(s[0])] + Lower(s[1..])
  }

  predicate IsLower(s: string)
  {
    forall i :: 0 <= i < |s| ==> !('A' <= s[i] <= 'Z')
  }

  /** Lower-casing leaves no upper-case ASCII letter and is idempotent. */
  lemma LowerIsLower(s: string)
    ensures IsLower(Lower(s))
    ensures Lower(Lower(s)) == Lower(s)
  {
  }

  /** `t` is the lower-case form of `s` when it agrees with it character by
      character. */
  lemma LowerMatches(s: string, t: string)
    requires |s| == |t|
    requires forall i :: 0 <= i < |s| ==> t[i] == LowerChar(s[i])
    ensures Lower(s) == t
  {
  }

  /** Lower-casing works character by character, so it distributes over
      concatenation. */
  lemma LowerAppend(s: string, t: string)
    ensures Lower(s + t) == Lower(s) + Lower(t)
  {
    LowerMatches(s + t, Lower(s) + Lower(t));
  }

  /** A string with no upper-case ASCII letter is its own lower-case form. */
  lemma LowerOfLower(s: string)
    requires IsLower(s)
    ensures Lower(s) == s
  {
  }

  // ---------------------------------------------------------------------
  // Substring search (String.prototype.includes / startsWith)
  // ---------------------------------------------------------------------

  /** `s.startsWith(prefix)` */
  predicate StartsWith(s: string, prefix: string)
  {
    |prefix| <= |s| && s[..|prefix|] == prefix
  }

  /** `sub` occurs in `s` starting at index `i`. */
  predicate OccursAt(s: string, sub: string, i: nat)
  {
    i + |sub| <= |s| && s[i..i + |sub|] == sub
  }

  /** `s.includes(sub)`: `sub` occurs at some position of `s`. */
  predicate Contains(s: string, sub: string)
  {
    exists i: nat :: i <= |s| && OccursAt(s, sub, i)
  }

  /** An occurrence at a known position is an occurrence. */
  lemma ContainsAt(s: string, sub: string, i: nat)
    requires i + |sub| <= |s|
    requires forall k :: 0 <= k < |sub| ==> s[i + k] == sub[k]
    ensures Contains(s, sub)
  {
    assert OccursAt(s, sub, i);
  }

  /** A text lacking one of the characters of `sub` does not contain `sub`. */
  lemma NotContainsMissing(s: string, sub: string, k: nat, c: char)
    requires k < |sub| && sub[k] == c && c !in s
    ensures !Contains(s, sub)
  {
  }

  /** A text in which the character `sub[k]` is never followed by `sub[k + 1]`
      does not contain `sub`. */
  lemma NotContainsPair(s: string, sub: string, k: nat, a: char, b: char)
    requires k + 1 < |sub| && sub[k] == a && sub[k + 1] == b
    requires PairFree(s, a, b)
    ensures !Contains(s, sub)
  {
  }

  /** `a` is never immediately followed by `b` in `s`. */
  predicate PairFree(s: string, a: char, b: char)
  {
    forall i :: 0 <= i < |s| - 1 && s[i] == a ==> s[i + 1] != b
  }

  lemma PairFreeAppend(s: string, t: string, a: char, b: char)
    requires PairFree(s, a, b) && PairFree(t, a, b)
    requires |s| > 0 && |t| > 0 ==> s[|s| - 1] != a || t[0] != b
    ensures PairFree(s + t, a, b)
  {
    var st := s + t;
    forall i | 0 <= i < |st| - 1 && st[i] == a
      ensures st[i + 1] != b
    {
      if i < |s| - 1 {
        assert st[i] == s[i] && st[i + 1] == s[i + 1];
      } else if i >= |s| {
        assert st[i] == t[i - |s|] && st[i + 1] == t[i - |s| + 1];
      }
    }
  }

  /** An occurrence in either half of a concatenation is an occurrence in
      the whole. */
  lemma ContainsAppend(s: string, t: string, sub: string)
    requires Contains(s, sub) || Contains(t, sub)
    ensures Contains(s + t, sub)
  {
    if Contains(s, sub) {
      var i: nat :| i <= |s| && OccursAt(s, sub, i);
      assert (s + t)[i..i + |sub|] == s[i..i + |sub|];
      assert OccursAt(s + t, sub, i);
    } else {
      var i: nat :| i <= |t| && OccursAt(t, sub, i);
      assert (s + t)[|s| + i..|s| + i + |sub|] == t[i..i + |sub|];
      assert OccursAt(s + t, sub, |s| + i);
    }
  }

  /** Whoever contains a string contains each of its prefixes: in particular
      a text mentioning "rights" also mentions "right". */
  lemma ContainsPrefix(s: string, sub: string, shorter: string)
    requires Contains(s, sub)
    requires StartsWith(sub, shorter)
    ensures Contains(s, shorter)
  {
    var i: nat :| i <= |s| && OccursAt(s, sub, i);
    assert s[i..i + |shorter|] == s[i..i + |sub|][..|shorter|];
    assert OccursAt(s, shorter, i);
  }

  // ---------------------------------------------------------------------
  // Whitespace trimming (String.prototype.trim)
  // ---------------------------------------------------------------------

  /** The characters ECMAScript's `trim` removes: WhiteSpace (tab, vertical
      tab, form feed, space, no-break space, byte-order mark and the Zs
      category) and LineTerminator (LF, CR, LS, PS). */
  predicate IsJsWhitespace(c: char)
  {
    || c == '\t' || c == '\U{000B}' || c == '\U{000C}' || c == ' '
    || c == '\U{00A0}' || c == '\U{FEFF}' || c == '\U{1680}'
    || ('\U{2000}' <= c <= '\U{200A}') || c == '\U{202F}' || c == '\U{205F}' || c == '\U{3000}'
    || c == '\n' || c == '\r' || c == '\U{2028}' || c == '\U{2029}'
  }

  predicate AllWhitespace(s: string)
  {
    forall i :: 0 <= i < |s| ==> IsJsWhitespace(s[i])
  }

  /** Drops the leading whitespace: the result is the suffix of `s` that
      starts at its first non-whitespace character. */
  function TrimStart(s: string): (r: string)
    ensures |r| <= |s| && r == s[|s| - |r|..]
    ensures AllWhitespace(s[..|s| - |r|])
    ensures r != [] ==> !IsJsWhitespace(r[0])
  {
    if s != [] && IsJsWhitespace(s[0]) then TrimStart(s[1..]) else s
  }

  /** Drops the trailing whitespace: the result is the prefix of `s` that
      ends at its last non-whitespace character. */
  function TrimEnd(s: string): (r: string)
    ensures |r| <= |s| && r == s[..|r|]
    ensures AllWhitespace(s[|r|..])
    ensures r != [] ==> !IsJsWhitespace(r[|r| - 1])
  {
    if s != [] && IsJsWhitespace(s[|s| - 1]) then TrimEnd(s[..|s| - 1]) else s
  }

  /** `s.trim()` */
  function Trim(s: string): string
  {
    TrimEnd(TrimStart(s))
  }

  /** `s.trim()` is empty exactly when `s` consists of whitespace only. */
  lemma TrimEmptyIff(s: string)
    ensures Trim(s) == [] <==> AllWhitespace(s)
  {
    var t := TrimStart(s);
    if Trim(s) == [] {
      assert s == s[..|s| - |t|];
    }
  }

  // ---------------------------------------------------------------------
  // Splitting, slicing and joining
  // ---------------------------------------------------------------------

  /** `s.split(sep)[0]`: everything before the first `sep`, or all of `s`. */
  function BeforeFirst(s: string, sep: char): (r: string)
    ensures r <= s
    ensures sep !in r
    ensures |r| < |s| ==> s[|r|] == sep
  {
    if s == [] || s[0] == sep then [] else [s[0]] + BeforeFirst(s[1..], sep)
  }

  /** `s.slice(-k)` for k > 0: the last `k` elements, or all of `s` when it
      is shorter. */
  function TakeLast<T>(s: seq<T>, k: nat): (r: seq<T>)
    ensures |r| == if |s| < k then |s| else k
    ensures r == s[|s| - |r|..]
  {
    if |s| <= k then s else s[|s| - k..]
  }

  /** `parts.join(sep)` */
  function Join(parts: seq<string>, sep: string): string
  {
    if parts == [] then []
    else if |parts| == 1 then parts[0]
    else parts[0] + sep + Join(parts[1..], sep)
  }

  // ---------------------------------------------------------------------
  // Decimal rendering (String(n) on a non-negative integer)
  // ---------------------------------------------------------------------

  predicate IsDigit(c: char)
  {
    '0' <= c <= '9'
  }

  function DigitChar(d: nat): (c: char)
    requires d < 10
    ensures IsDigit(c)
  {
    ('0' as int + d) as char
  }

  function DigitValue(c: char): nat
    requires IsDigit(c)
  {
    c as int - '0' as int
  }

  predicate AllDigits(s: string)
  {
    forall i :: 0 <= i < |s| ==> IsDigit(s[i])
  }

  /** `String(n)`: the shortest decimal numeral of `n`. */
  function Decimal(n: nat): (r: string)
    ensures 1 <= |r|
    ensures AllDigits(r)
    ensures |r| > 1 ==> r[0] != '0'
    ensures n < 10 <==> |r| == 1
  {
    if n < 10 then [DigitChar(n)] else Decimal(n / 10) + [DigitChar(n % 10)]
  }

  /** The number a string of digits denotes. */
  function DecimalValue(s: string): nat
    requires AllDigits(s)
  {
    if s == [] then 0 else 10 * DecimalValue(s[..|s| - 1]) + DigitValue(s[|s| - 1])
  }

  /** Reading back the numeral gives the number. */
  lemma {:induction false} DecimalRoundTrip(n: nat)
    ensures DecimalValue(Decimal(n)) == n
  {
    if n >= 10 {
      var s := Decimal(n);
      assert s[..|s| - 1] == Decimal(n / 10);
      DecimalRoundTrip(n / 10);
    }
  }

  /** Distinct numbers have distinct numerals. */
  lemma DecimalInjective(m: nat, n: nat)
    requires Decimal(m) == Decimal(n)
    ensures m == n
  {
    DecimalRoundTrip(m);
    DecimalRoundTrip(n);
  }

  /** Three digits, zero padded: the numeral of `k` written with exactly
      three characters. */
  function Pad3(k: nat): (r: string)
    requires k < 1000
    ensures |r| == 3 && AllDigits(r)
  {
    [DigitChar(k / 100), DigitChar(k / 10 % 10), DigitChar(k % 10)]
  }

  /** The last character of a numeral is the units digit. */
  lemma DecimalLast(m: nat)
    ensures Decimal(m)[|Decimal(m)| - 1] == DigitChar(m % 10)
  {
  }

  /** The last three characters of the numeral of a number of at least three
      digits are the zero-padded numeral of its remainder modulo 1000. */
  lemma DecimalLastThree(n: nat)
    ensures n >= 100 ==> TakeLast(Decimal(n), 3) == Pad3(n % 1000)
  {
    if n < 100 { return; }
    var hundreds := Decimal(n / 100);
    var tens := Decimal(n / 10);
    DivTenTwice(n);
    assert tens == hundreds + [DigitChar(n / 10 % 10)];
    var whole := Decimal(n);
    assert whole == tens + [DigitChar(n % 10)];
    DecimalLast(n / 100);
    var last3 := [hundreds[|hundreds| - 1], DigitChar(n / 10 % 10), DigitChar(n % 10)];
    assert whole[|whole| - 3..] == last3;
    ThousandsDigits(n);
    assert last3 == Pad3(n % 1000);
  }

  /** Euclidean division is determined by quotient and remainder. */
  lemma DivMod10(n: nat, q: nat, r: nat)
    requires r < 10 && n == 10 * q + r
    ensures n / 10 == q && n % 10 == r
  {
  }

  lemma DivMod100(n: nat, q: nat, r: nat)
    requires r < 100 && n == 100 * q + r
    ensures n / 100 == q && n % 100 == r
  {
  }

  lemma DivTenTwice(n: nat)
    ensures n / 10 / 10 == n / 100
  {
    var q, r := n / 100, n % 100;
    DivMod10(n, 10 * q + r / 10, r % 10);
    DivMod10(10 * q + r / 10, q, r / 10);
  }

  lemma ThousandsDigits(n: nat)
    ensures (n % 1000) / 100 == n / 100 % 10
    ensures (n % 1000) / 10 % 10 == n / 10 % 10
    ensures (n % 1000) % 10 == n % 10
  {
    var q, k := n / 1000, n % 1000;
    var a, b := k / 100, k % 100;
    var c, e := k / 10, k % 10;
    DivMod100(n, 10 * q + a, b);
    DivMod10(10 * q + a, q, a);
    DivMod10(n, 100 * q + c, e);
    DivMod10(100 * q + c, 10 * q + c / 10, c % 10);
  }
}

=== FILE: csv_export.dfy ===
/** The body of the report export: a fixed header line, then one line per
    report, twelve comma-separated fields in header order. Title, location
    and reporter name are always wrapped in double quotes; only the
    description also has its inner quotes doubled (section 2, rule 7 of
    RFC 4180). Other fields are written bare.

    A small RFC 4180 reader is defined alongside, and the round trip is
    proved: a report whose bare fields hold no comma, quote or line break and
    whose wrapped-only fields hold no quote reads back field for field.
 */
module CsvExport {
  import opened Common
  import ReportsStore

  type Report = ReportsStore.Report

  // ---------------------------------------------------------------------
  // Writing
  // ---------------------------------------------------------------------

  /** How a field is written: as is, between quotes, or between quotes with
      inner quotes doubled. */
  datatype Cell = Bare(value: string) | Wrapped(value: string) | Escaped(value: string)

  /** `replace(/"/g, '""')`. */
  function EscapeQuotes(s: string): (r: string)
    ensures |r| >= |s|
    ensures '"' !in s ==> r == s
  {
    if s == [] then []
    else (if s[0] == '"' then "\"\"" else [s[0]]) + EscapeQuotes(s[1..])
  }

  function Render(c: Cell): string
  {
    match c
    case Bare(v) => v
    case Wrapped(v) => "\"" + v + "\""
    case Escaped(v) => "\"" + EscapeQuotes(v) + "\""
  }

  function RenderAll(cells: seq<Cell>): (r: seq<string>)
    ensures |r| == |cells|
    ensures forall i :: 0 <= i < |cells| ==> r[i] == Render(cells[i])
  {
    if cells == [] then [] else [Render(cells[0])] + RenderAll(cells[1..])
  }

  function Values(cells: seq<Cell>): (r: seq<string>)
    ensures |r| == |cells|
    ensures forall i :: 0 <= i < |cells| ==> r[i] == cells[i].value
  {
    if cells == [] then [] else [cells[0].value] + Values(cells[1..])
  }

  const HeaderNames: seq<string> := [
    "ID", "Title", "Location", "Category", "Severity", "Status",
    "Date Occurred", "Date Submitted", "Reporter Name", "Phone", "Email", "Description"
  ]

  /** The header line: the twelve column names joined by commas, and a line
      break. */
  const Header: string := Join(HeaderNames, ",") + "\n"

  /** The twelve fields of a report, in header order. */
  function Fields(r: Report): seq<string>
  {
    [r.id, r.title, r.location, r.category, r.severity, r.status,
     r.dateOccurred, r.dateSubmitted, r.name, r.phone, r.email, r.description]
  }

  /** How each of the twelve fields is written. */
  function RowCells(r: Report): (cells: seq<Cell>)
    ensures |cells| == |HeaderNames|
    ensures Values(cells) == Fields(r)
  {
    [Bare(r.id), Wrapped(r.title), Wrapped(r.location), Bare(r.category),
     Bare(r.severity), Bare(r.status), Bare(r.dateOccurred), Bare(r.dateSubmitted),
     Wrapped(r.name), Bare(r.phone), Bare(r.email), Escaped(r.description)]
  }

  /** One line of the body: the twelve written fields joined by commas. It
      starts with the bare identifier and ends with the quoted, escaped
      description. */
  function Row(r: Report): (line: string)
    ensures |line| > |r.id| && line[..|r.id| + 1] == r.id + ","
    ensures var d := "\"" + EscapeQuotes(r.description) + "\"";
      |line| >= |d| && line[|line| - |d|..] == d
  {
    var parts := RenderAll(RowCells(r));
    JoinStartsWithFirst(parts, ",");
    JoinEndsWithLast(parts, ",");
    Join(parts, ",")
  }

  function Rows(reports: seq<Report>): (rows: seq<string>)
    ensures |rows| == |reports|
    ensures forall i :: 0 <= i < |reports| ==> rows[i] == Row(reports[i])
  {
    if reports == [] then [] else [Row(reports[0])] + Rows(reports[1..])
  }

  /** The export body: the header, then the rows joined by line breaks, with
      no line break after the last row. */
  function Csv(reports: seq<Report>): string
  {
    Body(Header, reports)
  }

  /** The body after a given header line. Without reports it is the header
      alone; otherwise the first report's row follows the header directly. */
  function Body(header: string, reports: seq<Report>): (c: string)
    ensures |c| >= |header| && c[..|header|] == header
    ensures reports == [] ==> c == header
    ensures reports != [] ==>
      |c| >= |header| + |Row(reports[0])| > |header|
      && c[|header|..|header| + |Row(reports[0])|] == Row(reports[0])
  {
    var rows := Rows(reports);
    JoinStartsWithFirst(rows, "\n");
    header + Join(rows, "\n")
  }

  /** The export endpoint's own inline mock data, listed in the order the
      endpoint writes its keys. */
  const ExportSeed: seq<Report> := [
    ReportsStore.Report(id := "GR-2024-089", title := "Water contamination from mining runoff",
           location := "Konongo, Ashanti Region", category := "Environmental",
           severity := "High", status := "Under Review",
           dateOccurred := "2024-01-10", dateSubmitted := "2024-01-15",
           name := "Kwame A.", phone := "+233123456789", email := "",
           description := "Mining activities have contaminated our water sources, making them unsafe for consumption."),
    ReportsStore.Report(id := "GR-2024-088", title := "Excessive dust affecting respiratory health",
           location := "Obuasi, Ashanti Region", category := "Health & Safety",
           severity := "Medium", status := "In Progress",
           dateOccurred := "2024-01-12", dateSubmitted := "2024-01-14",
           name := "Ama B.", phone := "+233123456790", email := "ama.b@email.com",
           description := "Heavy machinery operations create excessive dust that affects our breathing and health."),
    ReportsStore.Report(id := "GR-2024-087", title := "Property damage from blasting operations",
           location := "Tarkwa, Western Region", category := "Property Damage",
           severity := "High", status := "Resolved",
           dateOccurred := "2024-01-08", dateSubmitted := "2024-01-13",
           name := "Kofi C.", phone := "+233123456791", email := "",
           description := "Blasting activities have caused cracks in our buildings and property damage.")
  ]

  /** `GET /api/export/reports`: the body written for the endpoint's inline
      records, whatever the store holds. The contract states that those
      records are field for field the first three reports the store starts
      with. */
  function ExportCsv(): (c: string)
    ensures c == Csv(ReportsStore.InitialStore().reports[..3])
  {
    ExportSeedIsStoreSeed();
    Csv(ExportSeed)
  }

  /** The endpoint's inline records and the store's first three seed
      reports agree record by record. */
  lemma ExportSeedIsStoreSeed()
    ensures ExportSeed == ReportsStore.SeedReports[..3]
  {
  }

  // ---------------------------------------------------------------------
  // Reading (RFC 4180)
  // ---------------------------------------------------------------------

  /** The rest of a quoted field, after its opening quote: `""` stands for
      one quote and a lone quote closes the field. Returns the value and
      what follows the closing quote, or `None` when no quote closes it. */
  function ParseQuoted(s: string): (p: Option<(string, string)>)
    ensures p.Some? ==> |p.value.1| < |s|
  {
    if s == [] then None
    else if s[0] == '"' then
      if |s| > 1 && s[1] == '"' then
        match ParseQuoted(s[2..])
        case None => None
        case Some((v, rest)) => Some(("\"" + v, rest))
      else Some(([], s[1..]))
    else
      match ParseQuoted(s[1..])
      case None => None
      case Some((v, rest)) => Some(([s[0]] + v, rest))
  }

  /** An unquoted field: everything up to the next comma or line break. */
  function ParseBare(s: string): (p: (string, string))
    ensures p.0 + p.1 == s
    ensures p.1 == [] || p.1[0] == ',' || p.1[0] == '\n'
  {
    if s == [] || s[0] == ',' || s[0] == '\n' then ([], s)
    else
      var (v, rest) := ParseBare(s[1..]);
      ([s[0]] + v, rest)
  }

  function ParseField(s: string): (p: Option<(string, string)>)
    ensures p.Some? ==> |p.value.1| <= |s|
  {
    if s != [] && s[0] == '"' then ParseQuoted(s[1..]) else Some(ParseBare(s))
  }

  /** One record: fields separated by commas, up to a line break or the end.
      Returns the fields and the text after the line break. */
  function ParseRecord(s: string): (p: Option<(seq<string>, string)>)
    ensures p.Some? ==> |p.value.0| > 0 && |p.value.1| <= |s|
    ensures p.Some? && s != [] ==> |p.value.1| < |s|
    decreases |s|
  {
    match ParseField(s)
    case None => None
    case Some((v, rest)) =>
      if rest == [] then Some(([v], []))
      else if rest[0] == ',' then
        match ParseRecord(rest[1..])
        case None => None
        case Some((vs, rest2)) => Some(([v] + vs, rest2))
      else if rest[0] == '\n' then Some(([v], rest[1..]))
      else None
  }

  /** All records of a document; a final line break ends the last record
      and does not start another. */
  function ParseDocument(s: string): (p: Option<seq<seq<string>>>)
    decreases |s|
  {
    if s == [] then Some([])
    else
      match ParseRecord(s)
      case None => None
      case Some((fields, rest)) =>
        match ParseDocument(rest)
        case None => None
        case Some(records) => Some([fields] + records)
  }

  // ---------------------------------------------------------------------
  // Round trip
  // ---------------------------------------------------------------------

  /** A cell reads back as its value: bare text must hold no separator and
      no quote, text wrapped without escaping must hold no quote. */
  predicate Decodable(c: Cell)
  {
    match c
    case Bare(v) => BareSafe(v)
    case Wrapped(v) => '"' !in v
    case Escaped(_) => true
  }

  /** Text that can stand unquoted: no comma, line break or quote. */
  predicate BareSafe(v: string)
  {
    ',' !in v && '\n' !in v && '"' !in v
  }

  /** What may follow a field: nothing, a comma or a line break. */
  predicate FieldEnd(t: string)
  {
    t == [] || t[0] == ',' || t[0] == '\n'
  }

  /** A report the export writes readably. */
  predicate Exportable(r: Report)
  {
    forall c | c in RowCells(r) :: Decodable(c)
  }

  lemma {:induction false} BareRoundTrip(v: string, t: string)
    requires ',' !in v && '\n' !in v
    requires FieldEnd(t)
    ensures ParseBare(v + t) == (v, t)
  {
    if v == [] {
      assert v + t == t;
    } else {
      assert (v + t)[0] == v[0];
      assert (v + t)[1..] == v[1..] + t;
      BareRoundTrip(v[1..], t);
      assert [v[0]] + v[1..] == v;
    }
  }

  /** Doubling the quotes is undone by the quoted-field reader. */
  lemma {:induction false} EscapedRoundTrip(v: string, t: string)
    requires t == [] || t[0] != '"'
    ensures ParseQuoted(EscapeQuotes(v) + "\"" + t) == Some((v, t))
  {
    var s := EscapeQuotes(v) + "\"" + t;
    if v == [] {
      assert s == "\"" + t;
      assert s[1..] == t;
    } else {
      var head := if v[0] == '"' then "\"\"" else [v[0]];
      assert EscapeQuotes(v) == head + EscapeQuotes(v[1..]);
      var s' := EscapeQuotes(v[1..]) + "\"" + t;
      assert s == head + s';
      EscapedRoundTrip(v[1..], t);
      if v[0] == '"' {
        assert s[2..] == s';
      } else {
        assert s[1..] == s';
      }
      assert [v[0]] + v[1..] == v;
    }
  }

  /** A field opening with a quote is read by the quoted-field reader. */
  lemma QuotedField(e: string, t: string)
    ensures ParseField("\"" + e + "\"" + t) == ParseQuoted(e + "\"" + t)
  {
    var s := "\"" + e + "\"" + t;
    assert s[0] == '"';
    assert s[1..] == e + "\"" + t;
  }

  lemma FieldRoundTrip(c: Cell, t: string)
    requires Decodable(c)
    requires FieldEnd(t)
    ensures ParseField(Render(c) + t) == Some((c.value, t))
  {
    match c
    case Bare(v) =>
      BareRoundTrip(v, t);
      if v == [] {
        assert v + t == t;
      } else {
        assert (v + t)[0] == v[0];
      }
    case Wrapped(v) =>
      QuotedField(v, t);
      EscapedRoundTrip(v, t);
    case Escaped(v) =>
      QuotedField(EscapeQuotes(v), t);
      EscapedRoundTrip(v, t);
  }

  /** A record of readable cells reads back as their values, leaving what
      follows its line break. */
  lemma {:induction false} RecordRoundTrip(cells: seq<Cell>, t: string)
    requires |cells| > 0
    requires forall i :: 0 <= i < |cells| ==> Decodable(cells[i])
    requires t == [] || t[0] == '\n'
    ensures ParseRecord(Join(RenderAll(cells), ",") + t)
      == Some((Values(cells), if t == [] then [] else t[1..]))
  {
    var parts := RenderAll(cells);
    if |cells| == 1 {
      assert Join(parts, ",") == Render(cells[0]);
      FieldRoundTrip(cells[0], t);
      assert Values(cells) == [cells[0].value];
    } else {
      var tail := Join(RenderAll(cells[1..]), ",") + t;
      assert parts[1..] == RenderAll(cells[1..]);
      assert Join(parts, ",") + t == Render(cells[0]) + ("," + tail);
      FieldRoundTrip(cells[0], "," + tail);
      assert ("," + tail)[1..] == tail;
      RecordRoundTrip(cells[1..], t);
      assert Values(cells) == [cells[0].value] + Values(cells[1..]);
    }
  }

  function AllFields(reports: seq<Report>): (r: seq<seq<string>>)
    ensures |r| == |reports|
    ensures forall i :: 0 <= i < |reports| ==> r[i] == Fields(reports[i])
  {
    if reports == [] then [] else [Fields(reports[0])] + AllFields(reports[1..])
  }

  lemma RowRoundTrip(r: Report, t: string)
    requires Exportable(r)
    requires t == [] || t[0] == '\n'
    ensures ParseRecord(Row(r) + t) == Some((Fields(r), if t == [] then [] else t[1..]))
    ensures Row(r) != []
  {
    var cells := RowCells(r);
    forall i | 0 <= i < |cells|
      ensures Decodable(cells[i])
    {
      assert cells[i] in cells;
    }
    RecordRoundTrip(cells, t);
    assert RenderAll(cells)[1..] == RenderAll(cells[1..]);
  }

  /** The rows of exportable reports read back as their fields. */
  lemma {:induction false} RowsRoundTrip(reports: seq<Report>)
    requires forall i :: 0 <= i < |reports| ==> Exportable(reports[i])
    ensures ParseDocument(Join(Rows(reports), "\n")) == Some(AllFields(reports))
  {
    if reports == [] {
    } else if |reports| == 1 {
      RowRoundTrip(reports[0], []);
      assert Row(reports[0]) + [] == Row(reports[0]);
    } else {
      var rest := Join(Rows(reports[1..]), "\n");
      assert Rows(reports)[1..] == Rows(reports[1..]);
      assert Join(Rows(reports), "\n") == Row(reports[0]) + ("\n" + rest);
      RowRoundTrip(reports[0], "\n" + rest);
      assert ("\n" + rest)[1..] == rest;
      RowsRoundTrip(reports[1..]);
      assert AllFields(reports) == [Fields(reports[0])] + AllFields(reports[1..]);
    }
  }

  function HeaderCells(names: seq<string>): (cells: seq<Cell>)
    ensures Values(cells) == names
    ensures |cells| == |names|
    ensures forall i :: 0 <= i < |names| ==> cells[i] == Bare(names[i])
  {
    if names == [] then [] else [Bare(names[0])] + HeaderCells(names[1..])
  }

  lemma {:induction false} RenderBare(names: seq<string>)
    ensures RenderAll(HeaderCells(names)) == names
  {
    if names != [] {
      RenderBare(names[1..]);
    }
  }

  lemma HeaderReadable()
    ensures forall i :: 0 <= i < |HeaderNames| ==> Decodable(Bare(HeaderNames[i]))
  {
    HeaderNamesSafeLow();
    HeaderNamesSafeHigh();
  }

  lemma HeaderNamesSafeLow()
    ensures forall i :: 0 <= i < 6 ==> BareSafe(HeaderNames[i])
  {
  }

  lemma HeaderNamesSafeHigh()
    ensures forall i :: 6 <= i < 12 ==> BareSafe(HeaderNames[i])
  {
  }

  /** A document made of a line of readable names and the rows of
      exportable reports reads back as the names, then each report's
      fields. */
  lemma DocumentRoundTrip(names: seq<string>, reports: seq<Report>)
    requires |names| > 0
    requires forall i :: 0 <= i < |names| ==> Decodable(Bare(names[i]))
    requires forall i :: 0 <= i < |reports| ==> Exportable(reports[i])
    ensures ParseDocument(Join(names, ",") + "\n" + Join(Rows(reports), "\n"))
      == Some([names] + AllFields(reports))
  {
    var body := Join(Rows(reports), "\n");
    HeaderLineRoundTrip(names, body);
    RowsRoundTrip(reports);
  }

  /** A header line of bare names reads back as the names, and leaves the
      text after its line break. */
  lemma HeaderLineRoundTrip(names: seq<string>, rest: string)
    requires |names| > 0
    requires forall i :: 0 <= i < |names| ==> Decodable(Bare(names[i]))
    ensures ParseRecord(Join(names, ",") + "\n" + rest) == Some((names, rest))
  {
    var t := "\n" + rest;
    BareNamesRoundTrip(names, t);
    assert Join(names, ",") + "\n" + rest == Join(names, ",") + t;
    assert t[1..] == rest;
  }

  /** Bare names joined by commas, then a line break, read back as the names. */
  lemma BareNamesRoundTrip(names: seq<string>, t: string)
    requires |names| > 0
    requires forall i :: 0 <= i < |names| ==> Decodable(Bare(names[i]))
    requires t == [] || t[0] == '\n'
    ensures ParseRecord(Join(names, ",") + t) == Some((names, if t == [] then [] else t[1..]))
  {
    var cells := HeaderCells(names);
    forall i | 0 <= i < |cells|
      ensures Decodable(cells[i])
    {
      assert cells[i] == Bare(names[i]);
    }
    RecordRoundTrip(cells, t);
    RenderBare(names);
  }

  /** The whole export reads back as the header names followed by the fields
      of each report, in order. */
  lemma CsvRoundTrip(reports: seq<Report>)
    requires forall i :: 0 <= i < |reports| ==> Exportable(reports[i])
    ensures ParseDocument(Csv(reports)) == Some([HeaderNames] + AllFields(reports))
  {
    HeaderReadable();
    DocumentRoundTrip(HeaderNames, reports);
  }

  // ---------------------------------------------------------------------
  // The description field
  // ---------------------------------------------------------------------

  /** Collapses every `""` to `"`, reading left to right. */
  function Unescape(s: string): string
  {
    if s == [] then []
    else if |s| > 1 && s[0] == '"' && s[1] == '"' then "\"" + Unescape(s[2..])
    else [s[0]] + Unescape(s[1..])
  }

  lemma {:induction false} UnescapeEscape(d: string)
    ensures Unescape(EscapeQuotes(d)) == d
  {
    if d != [] {
      var e := EscapeQuotes(d);
      UnescapeEscape(d[1..]);
      if d[0] == '"' {
        assert e == "\"\"" + EscapeQuotes(d[1..]);
        assert e[2..] == EscapeQuotes(d[1..]);
      } else {
        assert e == [d[0]] + EscapeQuotes(d[1..]);
        assert e[1..] == EscapeQuotes(d[1..]);
        if |e| > 1 && e[0] == '"' {
          assert false;
        }
      }
      assert [d[0]] + d[1..] == d;
    }
  }

  /** The description column of a row: stripping its outer quotes and
      collapsing doubled quotes gives back the description. */
  lemma DescriptionRoundTrip(r: Report)
    ensures var cell := Render(RowCells(r)[11]);
      |cell| >= 2 && cell[0] == '"' && cell[|cell| - 1] == '"'
      && Unescape(cell[1..|cell| - 1]) == r.description
  {
    var cell := Render(RowCells(r)[11]);
    assert cell[1..|cell| - 1] == EscapeQuotes(r.description);
    UnescapeEscape(r.description);
  }

  lemma {:induction false} EscapeAppend(a: string, b: string)
    ensures EscapeQuotes(a + b) == EscapeQuotes(a) + EscapeQuotes(b)
  {
    if a == [] {
      assert a + b == b;
    } else {
      var c, x := a[0], a[1..];
      var h := if c == '"' then "\"\"" else [c];
      var e, f := EscapeQuotes(x), EscapeQuotes(b);
      assert a == [c] + x;
      assert a + b == [c] + (x + b);
      EscapeCons(c, x);
      EscapeCons(c, x + b);
      EscapeAppend(x, b);
      assert EscapeQuotes(a + b) == h + (e + f);
      assert EscapeQuotes(a) == h + e;
      AppendRegroup(h, e, f);
    }
  }

  /** A local proof step: concatenation regroups. It is a lemma of its own
      because inside larger proofs the solver finds it only at great cost. */
  lemma AppendRegroup(h: string, e: string, f: string)
    ensures h + (e + f) == (h + e) + f
  {
  }

  /** Escaping a text that starts with `c` escapes `c`, then the rest. */
  lemma EscapeCons(c: char, s: string)
    ensures EscapeQuotes([c] + s) == (if c == '"' then "\"\"" else [c]) + EscapeQuotes(s)
  {
    assert ([c] + s)[1..] == s;
  }

  /** A description with quotes in it: `He said "stop"` is written as
      `"He said ""stop"""`. */
  lemma QuotedDescriptionExample(said: string, stop: string)
    requires said == "He said " && stop == "stop"
    ensures Render(Escaped(said + "\"" + stop + "\""))
      == "\"" + said + "\"\"" + stop + "\"\"" + "\""
  {
    assert '"' !in said;
    assert '"' !in stop;
    var e := EscapeQuotes(said + "\"" + stop + "\"");
    EscapeAroundQuotes(said, stop);
    assert Render(Escaped(said + "\"" + stop + "\"")) == "\"" + e + "\"";
  }

  lemma EscapeAroundQuotes(a: string, b: string)
    requires '"' !in a && '"' !in b
    ensures EscapeQuotes(a + "\"" + b + "\"") == a + "\"\"" + b + "\"\""
  {
    var q: string := "\"";
    assert EscapeQuotes(q) == "\"\"" + EscapeQuotes([]);
    EscapeAppend(a + q + b, q);
    EscapeAppend(a + q, b);
    EscapeAppend(a, q);
  }

  /** The quoted-field reader stops at the quote inside `a"b`. */
  lemma QuoteInsideEndsField(u: string)
    ensures ParseQuoted("a\"b\"" + u) == Some(("a", "b\"" + u))
  {
    var s := "a\"b\"" + u;
    assert s[0] == 'a';
    assert s[1..] == "\"b\"" + u;
    assert s[1..][0] == '"' && s[1..][1] == 'b';
    assert s[1..][1..] == "b\"" + u;
    assert ParseQuoted(s[1..]) == Some(([], "b\"" + u));
    assert ['a'] + [] == "a";
  }

  /** After a field wrapped around `a"b` comes `b`, which is neither a
      separator nor a line break. */
  lemma WrappedQuoteUnreadable(u: string)
    ensures ParseRecord("\"a\"b\"" + u) == None
  {
    var s := "\"a\"b\"" + u;
    assert s[0] == '"';
    assert s[1..] == "a\"b\"" + u;
    QuoteInsideEndsField(u);
    assert ("b\"" + u)[0] == 'b';
  }

  /** Title, location and name are wrapped without escaping, so a quote in
      them ends the field early: a row whose title is `a"b` does not read
      back at all. */
  lemma QuotedTitleBreaksRow(r: Report)
    requires r.title == "a\"b"
    requires BareSafe(r.id)
    ensures ParseRecord(Row(r)) == None
  {
    var parts := RenderAll(RowCells(r));
    var rest := Join(parts[1..], ",");
    var tail := Join(parts[2..], ",");
    assert parts[1..][1..] == parts[2..];
    assert rest == "\"a\"b\"" + ("," + tail);
    WrappedQuoteUnreadable("," + tail);
    assert Join(parts, ",") == r.id + ("," + rest);
    BareRoundTrip(r.id, "," + rest);
    assert ("," + rest)[1..] == rest;
  }

  /** The category is written bare, so a category `a,b` reads back as two
      fields: the row has one field more than the header.
      `SplitCellReadsTwo` states the same for a bare cell at any position. */
  lemma BareCommaBreaksRow(r: Report, a: string, b: string)
    requires r.category == a + "," + b
    requires BareSafe(r.id) && BareSafe(a) && BareSafe(b) && BareSafe(r.severity) && BareSafe(r.status)
    requires BareSafe(r.dateOccurred) && BareSafe(r.dateSubmitted) && BareSafe(r.phone) && BareSafe(r.email)
    requires '"' !in r.title && '"' !in r.location && '"' !in r.name
    ensures ParseRecord(Row(r)) == Some((Fields(r)[..3] + [a, b] + Fields(r)[4..], []))
    ensures |ParseRecord(Row(r)).value.0| == |HeaderNames| + 1
  {
    SplitCellReadsTwo(RowCells(r), 3, a, b);
  }

  /** A line whose `k`-th cell is a bare `a,b` reads back with `a` and `b`
      as two values where the cell's one value stood. */
  lemma {:induction false} SplitCellReadsTwo(cells: seq<Cell>, k: nat, a: string, b: string)
    requires k < |cells| && cells[k] == Bare(a + "," + b)
    requires BareSafe(a) && BareSafe(b)
    requires forall i :: 0 <= i < |cells| && i != k ==> Decodable(cells[i])
    ensures ParseRecord(Join(RenderAll(cells), ","))
      == Some((Values(cells)[..k] + [a, b] + Values(cells)[k + 1..], []))
  {
    if k == 0 {
      SplitFirstCellReadsTwo(cells, a, b);
      assert Values(cells)[..0] + [a, b] == [a, b];
    } else {
      var later := cells[1..];
      forall i | 0 <= i < |later| && i != k - 1
        ensures Decodable(later[i])
      {
        assert later[i] == cells[i + 1];
      }
      SplitCellReadsTwo(later, k - 1, a, b);
      FirstThenSplit(cells, k, [a, b]);
    }
  }

  /** One more readable cell in front of a line that reads back with `mid`
      in place of its cell `k - 1`. */
  lemma FirstThenSplit(cells: seq<Cell>, k: nat, mid: seq<string>)
    requires 0 < k < |cells| && Decodable(cells[0])
    requires var ws := Values(cells[1..]);
      ParseRecord(Join(RenderAll(cells[1..]), ",")) == Some((ws[..k - 1] + mid + ws[k..], []))
    ensures var vs := Values(cells);
      ParseRecord(Join(RenderAll(cells), ",")) == Some((vs[..k] + mid + vs[k + 1..], []))
  {
    var ws := Values(cells[1..]);
    FieldThenRecord(cells[0], Join(RenderAll(cells[1..]), ","), ws[..k - 1] + mid + ws[k..]);
    JoinFirst(cells);
    ValuesAroundSplit(cells, k, mid);
  }

  /** The case of `SplitCellReadsTwo` where the first cell is cut. */
  lemma SplitFirstCellReadsTwo(cells: seq<Cell>, a: string, b: string)
    requires 0 < |cells| && cells[0] == Bare(a + "," + b)
    requires BareSafe(a) && BareSafe(b)
    requires forall i :: 0 < i < |cells| ==> Decodable(cells[i])
    ensures ParseRecord(Join(RenderAll(cells), ",")) == Some(([a, b] + Values(cells)[1..], []))
  {
    var rest := cells[0 := Bare(b)];
    RecordRoundTrip(rest, []);
    var line := Join(RenderAll(rest), ",");
    assert line + [] == line;
    FieldThenRecord(Bare(a), line, Values(rest));
    SplitFirstLine(cells, a, b);
    ValuesFirstReplaced(cells, a, b);
  }

  /** Replacing the first value `a,b` by `b` and putting `a` in front. */
  lemma ValuesFirstReplaced(cells: seq<Cell>, a: string, b: string)
    requires 0 < |cells|
    ensures [a] + Values(cells[0 := Bare(b)]) == [a, b] + Values(cells)[1..]
  {
    var rest := cells[0 := Bare(b)];
    assert rest[1..] == cells[1..];
    assert Values(rest) == [b] + Values(cells[1..]);
    assert Values(cells)[1..] == Values(cells[1..]) by {
      assert Values(cells) == [cells[0].value] + Values(cells[1..]);
    }
    assert [a] + ([b] + Values(cells[1..])) == [a, b] + Values(cells[1..]);
  }

  /** A readable field, a comma, then a line that reads back completely. */
  lemma FieldThenRecord(c: Cell, line: string, vs: seq<string>)
    requires Decodable(c)
    requires ParseRecord(line) == Some((vs, []))
    ensures ParseRecord(Render(c) + ("," + line)) == Some(([c.value] + vs, []))
  {
    FieldRoundTrip(c, "," + line);
    assert ("," + line)[1..] == line;
  }

  /** A line of two or more cells is the first written cell, a comma, and
      the rest of the line. */
  lemma JoinFirst(cells: seq<Cell>)
    requires |cells| > 1
    ensures Join(RenderAll(cells), ",") == Render(cells[0]) + ("," + Join(RenderAll(cells[1..]), ","))
  {
    assert RenderAll(cells) == [Render(cells[0])] + RenderAll(cells[1..]);
    JoinCons(Render(cells[0]), RenderAll(cells[1..]), ",");
  }

  /** Joining a part in front of a non-empty list adds it and a separator. */
  lemma JoinCons(p: string, ps: seq<string>, sep: string)
    requires ps != []
    ensures Join([p] + ps, sep) == p + (sep + Join(ps, sep))
  {
    assert ([p] + ps)[1..] == ps;
  }

  /** Cutting the first cell `a,b` at its comma leaves `a`, a comma, and the
      line whose first cell is `b`. */
  lemma SplitFirstLine(cells: seq<Cell>, a: string, b: string)
    requires 0 < |cells| && cells[0] == Bare(a + "," + b)
    ensures Join(RenderAll(cells), ",")
      == Render(Bare(a)) + ("," + Join(RenderAll(cells[0 := Bare(b)]), ","))
  {
    var rest := cells[0 := Bare(b)];
    var parts := RenderAll(cells);
    var line := Join(RenderAll(rest), ",");
    assert rest[1..] == cells[1..];
    if |cells| == 1 {
      assert line == b;
    } else {
      var tail := Join(RenderAll(cells[1..]), ",");
      JoinFirst(cells);
      JoinFirst(rest);
      assert line == b + ("," + tail);
      CommaRegroup(a, b, tail);
    }
  }

  /** A local proof step, like `AppendRegroup`: regrouping `a,b` followed
      by a comma and a tail. */
  lemma CommaRegroup(a: string, b: string, tail: string)
    ensures (a + "," + b) + ("," + tail) == a + ("," + (b + ("," + tail)))
  {
  }

  /** Values before and after position `k`, seen from the second cell on. */
  lemma ValuesAroundSplit(cells: seq<Cell>, k: nat, mid: seq<string>)
    requires 0 < k < |cells|
    ensures var vs := Values(cells); var ws := Values(cells[1..]);
      vs[..k] + mid + vs[k + 1..] == [vs[0]] + (ws[..k - 1] + mid + ws[k..])
  {
    var vs := Values(cells);
    assert vs == [cells[0].value] + Values(cells[1..]);
    AroundShift(vs, k, mid);
  }

  /** Slices around position `k` of a sequence, read from its tail. */
  lemma AroundShift<T>(vs: seq<T>, k: nat, mid: seq<T>)
    requires 0 < k < |vs|
    ensures vs[..k] + mid + vs[k + 1..] == [vs[0]] + (vs[1..][..k - 1] + mid + vs[1..][k..])
  {
    var ws := vs[1..];
    assert vs[..k] == [vs[0]] + ws[..k - 1];
    assert vs[k + 1..] == ws[k..];
  }

  /** With every field readable, a row splits into exactly twelve fields. */
  lemma RowHasTwelveFields(r: Report)
    requires Exportable(r)
    ensures ParseRecord(Row(r)) == Some((Fields(r), []))
    ensures |Fields(r)| == |HeaderNames|
  {
    RowRoundTrip(r, []);
    assert Row(r) + [] == Row(r);
  }

  // ---------------------------------------------------------------------
  // The exported document
  // ---------------------------------------------------------------------

  /** A join begins with its first part, followed by the separator when
      there is more than one part. */
  lemma JoinStartsWithFirst(parts: seq<string>, sep: string)
    ensures var j := Join(parts, sep); |parts| > 0 ==>
      && |j| >= |parts[0]| && j[..|parts[0]|] == parts[0]
      && (|parts| > 1 ==> |j| >= |parts[0]| + |sep| && j[..|parts[0]| + |sep|] == parts[0] + sep)
  {
    if |parts| > 1 {
      assert Join(parts, sep) == parts[0] + sep + Join(parts[1..], sep);
    }
  }

  lemma {:induction false} JoinEndsWithLast(parts: seq<string>, sep: string)
    requires |parts| > 0
    ensures var j := Join(parts, sep); var last := parts[|parts| - 1];
      |j| >= |last| && j[|j| - |last|..] == last
  {
    if |parts| > 1 {
      JoinEndsWithLast(parts[1..], sep);
    }
  }

  /** The body is the header line, then the rows, with no line break after
      the last row: a non-empty export ends with the closing quote of the
      last description. */
  lemma NoTrailingLineBreak(reports: seq<Report>)
    requires reports != []
    ensures var csv := Csv(reports); csv[|csv| - 1] == '"'
  {
    var rows := Rows(reports);
    var last := reports[|reports| - 1];
    var parts := RenderAll(RowCells(last));
    JoinEndsWithLast(rows, "\n");
    JoinEndsWithLast(parts, ",");
    var cell := parts[11];
    assert cell[|cell| - 1] == '"';
  }

  /** Exportability field by field. */
  lemma ExportableFields(r: Report)
    requires BareSafe(r.id) && BareSafe(r.category) && BareSafe(r.severity) && BareSafe(r.status)
    requires BareSafe(r.dateOccurred) && BareSafe(r.dateSubmitted) && BareSafe(r.phone) && BareSafe(r.email)
    requires '"' !in r.title && '"' !in r.location && '"' !in r.name
    ensures Exportable(r)
  {
  }
}

=== FILE: dashboard.dfy ===
/** The dashboard's badge and text colours: case-insensitive lookups of
    severity and status, the sign of a month-on-month change, and the arrow
    of a hotspot's trend, each with a gray default.

    The CSS class strings are the ones the page uses; a tone names the
    colour family they share.
 */
module Dashboard {
  import opened Common
  import ReportsStore

  datatype Tone = Red | Orange | Yellow | Green | Blue | Gray

  /** The class string of a badge of the given tone. */
  function BadgeClass(t: Tone): string
  {
    match t
    case Red => "bg-red-100 text-red-800"
    case Orange => "bg-orange-100 text-orange-800"
    case Yellow => "bg-yellow-100 text-yellow-800"
    case Green => "bg-green-100 text-green-800"
    case Blue => "bg-blue-100 text-blue-800"
    case Gray => "bg-gray-100 text-gray-800"
  }

  /** The class string of text of the given tone. */
  function TextClass(t: Tone): string
  {
    match t
    case Red => "text-red-600"
    case Orange => "text-orange-600"
    case Yellow => "text-yellow-600"
    case Green => "text-green-600"
    case Blue => "text-blue-600"
    case Gray => "text-gray-600"
  }

  /** `getSeverityColor`, as a tone: the `switch` on the lower-cased
      severity. */
  function SeverityTone(severity: string): (t: Tone)
    ensures t == Red <==> Lower(severity) == "critical"
    ensures t == Orange <==> Lower(severity) == "high"
    ensures t == Yellow <==> Lower(severity) == "medium"
    ensures t == Green <==> Lower(severity) == "low"
    ensures t == Gray <==> Lower(severity) !in {"critical", "high", "medium", "low"}
    ensures t != Blue
  {
    var s := Lower(severity);
    if s == "critical" then Red
    else if s == "high" then Orange
    else if s == "medium" then Yellow
    else if s == "low" then Green
    else Gray
  }

  function SeverityColor(severity: string): (c: string)
    ensures ToneOfBadge(c) == Some(SeverityTone(severity))
  {
    BadgeRoundTrip(SeverityTone(severity));
    BadgeClass(SeverityTone(severity))
  }

  /** `getStatusColor`, as a tone. */
  function StatusTone(status: string): (t: Tone)
    ensures t == Green <==> Lower(status) == "resolved"
    ensures t == Blue <==> Lower(status) == "in progress"
    ensures t == Yellow <==> Lower(status) == "under review"
    ensures t == Red <==> Lower(status) == "escalated"
    ensures t == Gray <==> Lower(status) !in {"resolved", "in progress", "under review", "escalated"}
    ensures t != Orange
  {
    var s := Lower(status);
    if s == "resolved" then Green
    else if s == "in progress" then Blue
    else if s == "under review" then Yellow
    else if s == "escalated" then Red
    else Gray
  }

  function StatusColor(status: string): (c: string)
    ensures ToneOfBadge(c) == Some(StatusTone(status))
  {
    BadgeRoundTrip(StatusTone(status));
    BadgeClass(StatusTone(status))
  }

  /** Both lookups ignore ASCII case. */
  lemma ColorsCaseInsensitive(s: string)
    ensures SeverityColor(s) == SeverityColor(Lower(s))
    ensures StatusColor(s) == StatusColor(Lower(s))
  {
    LowerIsLower(s);
  }

  /** Reads the tone back from a badge's class string. The colour name
      starts at index 3, and its first and third letters tell the six
      apart; the whole string must then be that tone's class. */
  function ToneOfBadge(c: string): (t: Option<Tone>)
    ensures t.Some? ==> BadgeClass(t.value) == c
  {
    if |c| < 6 then None
    else
      var guess := ToneOfLetters(c[3], c[5]);
      if guess.Some? && BadgeClass(guess.value) == c then guess else None
  }

  /** The same for a text class, whose colour name starts at index 5. */
  function ToneOfText(c: string): (t: Option<Tone>)
    ensures t.Some? ==> TextClass(t.value) == c
  {
    if |c| < 8 then None
    else
      var guess := ToneOfLetters(c[5], c[7]);
      if guess.Some? && TextClass(guess.value) == c then guess else None
  }

  function ToneOfLetters(first: char, third: char): Option<Tone>
  {
    if first == 'r' && third == 'd' then Some(Red)
    else if first == 'o' && third == 'a' then Some(Orange)
    else if first == 'y' && third == 'l' then Some(Yellow)
    else if first == 'g' && third == 'e' then Some(Green)
    else if first == 'b' && third == 'u' then Some(Blue)
    else if first == 'g' && third == 'a' then Some(Gray)
    else None
  }

  /** A badge's class string names its tone, so different tones give
      different badges and the badge shows which case of the lookup was
      taken. */
  lemma BadgeRoundTrip(t: Tone)
    ensures ToneOfBadge(BadgeClass(t)) == Some(t)
  {
    var c := BadgeClass(t);
    match t
    case Red => assert c[3] == 'r' && c[5] == 'd';
    case Orange => assert c[3] == 'o' && c[5] == 'a';
    case Yellow => assert c[3] == 'y' && c[5] == 'l';
    case Green => assert c[3] == 'g' && c[5] == 'e';
    case Blue => assert c[3] == 'b' && c[5] == 'u';
    case Gray => assert c[3] == 'g' && c[5] == 'a';
  }

  lemma TextRoundTrip(t: Tone)
    ensures ToneOfText(TextClass(t)) == Some(t)
  {
    var c := TextClass(t);
    match t
    case Red => assert c[5] == 'r' && c[7] == 'd';
    case Orange => assert c[5] == 'o' && c[7] == 'a';
    case Yellow => assert c[5] == 'y' && c[7] == 'l';
    case Green => assert c[5] == 'g' && c[7] == 'e';
    case Blue => assert c[5] == 'b' && c[7] == 'u';
    case Gray => assert c[5] == 'g' && c[7] == 'a';
  }

  lemma BadgeClassInjective(a: Tone, b: Tone)
    requires a != b
    ensures BadgeClass(a) != BadgeClass(b)
  {
    BadgeRoundTrip(a);
    BadgeRoundTrip(b);
  }

  /** A freshly added report shows the yellow "under review" badge. */
  lemma NewReportBadge(status: string)
    requires status == ReportsStore.InitialStatus
    ensures StatusTone(status) == Yellow
  {
    LowerMatches(status, "under review");
  }

  /** The colour of a month-on-month change: green when it starts with a
      plus sign, red when it starts with a minus sign, gray otherwise. */
  function ChangeTone(change: string): (t: Tone)
    ensures t == Green <==> |change| > 0 && change[0] == '+'
    ensures t == Red <==> |change| > 0 && change[0] == '-'
    ensures t == Gray <==> change == [] || (change[0] != '+' && change[0] != '-')
  {
    if StartsWith(change, "+") then Green
    else if StartsWith(change, "-") then Red
    else Gray
  }

  function ChangeColor(change: string): (c: string)
    ensures ToneOfText(c) == Some(ChangeTone(change))
  {
    TextRoundTrip(ChangeTone(change));
    TextClass(ChangeTone(change))
  }

  const UpArrow: string := "↑"
  const DownArrow: string := "↓"

  /** The colour of a hotspot's trend: a rising arrow is red, a falling one
      green, anything else gray. The comparison is exact. */
  function TrendTone(trend: string): (t: Tone)
    ensures t == Red <==> trend == UpArrow
    ensures t == Green <==> trend == DownArrow
    ensures t == Gray <==> trend != UpArrow && trend != DownArrow
  {
    if trend == UpArrow then Red
    else if trend == DownArrow then Green
    else Gray
  }

  function TrendColor(trend: string): (c: string)
    ensures ToneOfText(c) == Some(TrendTone(trend))
  {
    TextRoundTrip(TrendTone(trend));
    TextClass(TrendTone(trend))
  }

  /** The page's four hotspots' arrows. */
  const HotspotTrends: seq<string> := [UpArrow, DownArrow, UpArrow, "→"]

  /** The page's four month-on-month changes. */
  const StatChanges: seq<string> := ["+12%", "+5%", "+18%", "-2%"]

  /** The page's month-on-month changes: three rising totals in green and
      one falling in red. */
  lemma StatColors()
    ensures forall i :: 0 <= i < 3 ==> ChangeColor(StatChanges[i]) == "text-green-600"
    ensures ChangeColor(StatChanges[3]) == "text-red-600"
  {
  }

  /** The page's hotspots: rising ones in red, the falling one in green, the
      level one in gray. */
  lemma HotspotColors()
    ensures TrendColor(HotspotTrends[0]) == "text-red-600"
    ensures TrendColor(HotspotTrends[1]) == "text-green-600"
    ensures TrendColor(HotspotTrends[2]) == "text-red-600"
    ensures TrendColor(HotspotTrends[3]) == "text-gray-600"
  {
  }
}

=== FILE: fallback.dfy ===
/** The keyword responder the chat server falls back on when the completion
    service fails: a case-insensitive, first-match-wins ladder of substring
    tests choosing one of five fixed answers.

    The answers' wording is not modelled: each is an opaque constant, and
    only which of the five is chosen matters.
 */
module Fallback {
  import opened Common

  /** The five canned answers. */
  datatype Topic = Rights | Pollution | Compensation | Standards | General

  const RightsText: string := "[canned answer: community rights under the Mining Act]"
  const PollutionText: string := "[canned answer: how to report water pollution]"
  const CompensationText: string := "[canned answer: compensation process]"
  const StandardsText: string := "[canned answer: environmental standards]"
  const GeneralText: string := "[canned answer: please be more specific]"

  /** The text of each answer. */
  function Text(t: Topic): string
  {
    match t
    case Rights => RightsText
    case Pollution => PollutionText
    case Compensation => CompensationText
    case Standards => StandardsText
    case General => GeneralText
  }

  const Answers: set<string> := {RightsText, PollutionText, CompensationText, StandardsText, GeneralText}

  /** Different answers have different texts, so the text identifies the
      answer chosen. */
  lemma TextInjective(a: Topic, b: Topic)
    requires Text(a) == Text(b)
    ensures a == b
  {
  }

  // ---------------------------------------------------------------------
  // The ladder as a list of rules
  // ---------------------------------------------------------------------

  /** A rule fires when the text contains any of its keywords. */
  datatype Rule = Rule(keywords: seq<string>, topic: Topic)

  predicate ContainsAny(q: string, keywords: seq<string>)
  {
    |keywords| > 0 && (Contains(q, keywords[0]) || ContainsAny(q, keywords[1..]))
  }

  /** The rules in priority order. */
  const Ladder: seq<Rule> := [
    Rule(["rights", "right"], Rights),
    Rule(["water", "pollution"], Pollution),
    Rule(["compensation", "damage"], Compensation),
    Rule(["environmental", "standard"], Standards)
  ]

  /** The topic of the first rule that fires, or `General` when none does. */
  function FirstMatch(rules: seq<Rule>, q: string): (t: Topic)
    ensures t == General || exists i :: 0 <= i < |rules| && rules[i].topic == t
  {
    if rules == [] then General
    else if ContainsAny(q, rules[0].keywords) then rules[0].topic
    else FirstMatch(rules[1..], q)
  }

  // ---------------------------------------------------------------------
  // The ladder as the server writes it
  // ---------------------------------------------------------------------

  /** The cascade of `if`s of `getFallbackResponse`, on the lower-cased
      message. */
  function SelectTopic(message: string): Topic
  {
    var q := Lower(message);
    if Contains(q, "rights") || Contains(q, "right") then Rights
    else if Contains(q, "water") || Contains(q, "pollution") then Pollution
    else if Contains(q, "compensation") || Contains(q, "damage") then Compensation
    else if Contains(q, "environmental") || Contains(q, "standard") then Standards
    else General
  }

  /** `getFallbackResponse`: total and deterministic, one of exactly five
      texts, the one of the first rule of the ladder that fires on the
      lower-cased message. */
  function GetFallbackResponse(message: string): (r: string)
    ensures r in Answers
    ensures r == Text(FirstMatch(Ladder, Lower(message)))
  {
    SelectTopicIsFirstMatch(message);
    Text(SelectTopic(message))
  }

  lemma ContainsAnyPair(q: string, a: string, b: string)
    ensures ContainsAny(q, [a, b]) <==> Contains(q, a) || Contains(q, b)
  {
    assert [a, b][1..] == [b];
    assert [b][1..] == [];
    assert ContainsAny(q, [b]) <==> Contains(q, b);
  }

  /** The cascade of `if`s and the rule list choose the same answer. */
  lemma SelectTopicIsFirstMatch(message: string)
    ensures SelectTopic(message) == FirstMatch(Ladder, Lower(message))
  {
    var q := Lower(message);
    var rest1, rest2, rest3 := Ladder[1..], Ladder[2..], Ladder[3..];
    assert rest1[1..] == rest2 && rest2[1..] == rest3 && rest3[1..] == [];
    ContainsAnyPair(q, "rights", "right");
    ContainsAnyPair(q, "water", "pollution");
    ContainsAnyPair(q, "compensation", "damage");
    ContainsAnyPair(q, "environmental", "standard");
    assert FirstMatch(rest3, q) ==
      if Contains(q, "environmental") || Contains(q, "standard") then Standards else General;
    assert FirstMatch(rest2, q) ==
      if Contains(q, "compensation") || Contains(q, "damage") then Compensation else FirstMatch(rest3, q);
    assert FirstMatch(rest1, q) ==
      if Contains(q, "water") || Contains(q, "pollution") then Pollution else FirstMatch(rest2, q);
    assert FirstMatch(Ladder, q) ==
      if Contains(q, "rights") || Contains(q, "right") then Rights else FirstMatch(rest1, q);
  }

  /** Which answer is chosen, stated rule by rule. Since "right" is a prefix
      of "rights", the first rule fires exactly when "right" occurs. */
  lemma SelectTopicIff(message: string)
    ensures var q := Lower(message);
      && (SelectTopic(message) == Rights <==> Contains(q, "right"))
      && (SelectTopic(message) == Pollution <==>
            !Contains(q, "right") && (Contains(q, "water") || Contains(q, "pollution")))
      && (SelectTopic(message) == Compensation <==>
            && !Contains(q, "right") && !Contains(q, "water") && !Contains(q, "pollution")
            && (Contains(q, "compensation") || Contains(q, "damage")))
      && (SelectTopic(message) == Standards <==>
            && !Contains(q, "right") && !Contains(q, "water") && !Contains(q, "pollution")
            && !Contains(q, "compensation") && !Contains(q, "damage")
            && (Contains(q, "environmental") || Contains(q, "standard")))
      && (SelectTopic(message) == General <==>
            && !Contains(q, "right") && !Contains(q, "water") && !Contains(q, "pollution")
            && !Contains(q, "compensation") && !Contains(q, "damage")
            && !Contains(q, "environmental") && !Contains(q, "standard"))
  {
    var q := Lower(message);
    if Contains(q, "rights") {
      ContainsPrefix(q, "rights", "right");
    }
  }

  /** The responder ignores ASCII case. */
  lemma FallbackCaseInsensitive(message: string)
    ensures GetFallbackResponse(message) == GetFallbackResponse(Lower(message))
  {
    LowerIsLower(message);
  }

  // The four suggested questions of the assistant page pick the four
  // specific answers in turn, and a greeting picks the general one.
  //
  // The questions are long string literals. The verifier reasons about a
  // literal one character at a time, and about a long one poorly, so each
  // question is written as two pieces of at most 35 characters and every
  // fact about it is proved piece by piece: the lower-case form of each
  // piece, then which keywords occur in the lower-cased pieces and across
  // their junction. A lemma about a piece takes it as a parameter fixed by
  // its precondition, so that the text is not unfolded where it is not
  // needed.

  /** A keyword lying wholly inside the first piece occurs in the whole. */
  lemma KeywordIn(qa: string, qb: string, keyword: string, i: nat)
    requires i + |keyword| <= |qa|
    requires forall k :: 0 <= k < |keyword| ==> qa[i + k] == keyword[k]
    ensures Contains(qa + qb, keyword)
  {
    ContainsAt(qa, keyword, i);
    ContainsAppend(qa, qb, keyword);
  }

  /** A keyword with the adjacent letters `a`, `b` does not occur in two
      pieces in which `a` is never followed by `b`, not even across the
      junction. */
  lemma KeywordMissing(qa: string, qb: string, keyword: string, k: nat, a: char, b: char)
    requires k + 1 < |keyword| && keyword[k] == a && keyword[k + 1] == b
    requires PairFree(qa, a, b) && PairFree(qb, a, b)
    requires |qa| > 0 && |qb| > 0 ==> qa[|qa| - 1] != a || qb[0] != b
    ensures !Contains(qa + qb, keyword)
  {
    PairFreeAppend(qa, qb, a, b);
    NotContainsPair(qa + qb, keyword, k, a, b);
  }

  /** Without an 'r' followed by 'i', neither keyword of the rights rule
      occurs. */
  lemma RightsMissing(qa: string, qb: string)
    requires PairFree(qa, 'r', 'i') && PairFree(qb, 'r', 'i')
    requires |qa| > 0 && |qb| > 0 ==> qa[|qa| - 1] != 'r' || qb[0] != 'i'
    ensures !Contains(qa + qb, "rights") && !Contains(qa + qb, "right")
  {
    KeywordMissing(qa, qb, "rights", 0, 'r', 'i');
    KeywordMissing(qa, qb, "right", 0, 'r', 'i');
  }

  lemma RightsLower(m: string)
    requires m == "What are my rights as a community " + "member near mining operations?"
    ensures Lower(m) == "what are my rights as a community " + "member near mining operations?"
  {
    RightsLowerHead("What are my rights as a community ");
    RightsLowerTail("member near mining operations?");
    LowerAppend("What are my rights as a community ", "member near mining operations?");
  }

  lemma RightsLowerHead(ma: string)
    requires ma == "What are my rights as a community "
    ensures Lower(ma) == "what are my rights as a community "
  {
    LowerMatches(ma, "what are my rights as a community ");
  }

  lemma RightsLowerTail(mb: string)
    requires mb == "member near mining operations?"
    ensures Lower(mb) == "member near mining operations?"
  {
    LowerMatches(mb, "member near mining operations?");
  }

  lemma RightsExample(m: string)
    requires m == "What are my rights as a community " + "member near mining operations?"
    ensures SelectTopic(m) == Rights
  {
    var qa, qb := "what are my rights as a community ", "member near mining operations?";
    RightsLower(m);
    KeywordIn(qa, qb, "rights", 12);
  }

  /** No "ri" in the pollution question. */
  lemma PollutionMisses(qa: string, qb: string)
    requires qa == "how do i report water " && qb == "pollution from mining activities?"
    ensures !Contains(qa + qb, "rights") && !Contains(qa + qb, "right")
  {
    RightsMissing(qa, qb);
  }

  lemma PollutionLower(m: string)
    requires m == "How do I report water " + "pollution from mining activities?"
    ensures Lower(m) == "how do i report water " + "pollution from mining activities?"
  {
    PollutionLowerHead("How do I report water ");
    PollutionLowerTail("pollution from mining activities?");
    LowerAppend("How do I report water ", "pollution from mining activities?");
  }

  lemma PollutionLowerHead(ma: string)
    requires ma == "How do I report water "
    ensures Lower(ma) == "how do i report water "
  {
    LowerMatches(ma, "how do i report water ");
  }

  lemma PollutionLowerTail(mb: string)
    requires mb == "pollution from mining activities?"
    ensures Lower(mb) == "pollution from mining activities?"
  {
    LowerMatches(mb, "pollution from mining activities?");
  }

  lemma PollutionExample(m: string)
    requires m == "How do I report water " + "pollution from mining activities?"
    ensures SelectTopic(m) == Pollution
  {
    var qa, qb := "how do i report water ", "pollution from mining activities?";
    PollutionLower(m);
    PollutionMisses(qa, qb);
    KeywordIn(qa, qb, "water", 16);
  }

  /** No "ri" and no "wa" in the compensation question. */
  lemma CompensationMisses(qa: string, qb: string)
    requires qa == "what compensation can i claim " && qb == "for property damage from blasting?"
    ensures !Contains(qa + qb, "rights") && !Contains(qa + qb, "right")
    ensures !Contains(qa + qb, "water")
  {
    RightsMissing(qa, qb);
    KeywordMissing(qa, qb, "water", 0, 'w', 'a');
  }

  /** No 'u' at all in the compensation question. */
  lemma CompensationMissesPollution(qa: string, qb: string)
    requires qa == "what compensation can i claim " && qb == "for property damage from blasting?"
    ensures !Contains(qa + qb, "pollution")
  {
    assert 'u' !in qa && 'u' !in qb;
    NotContainsMissing(qa + qb, "pollution", 4, 'u');
  }

  lemma CompensationLower(m: string)
    requires m == "What compensation can I claim " + "for property damage from blasting?"
    ensures Lower(m) == "what compensation can i claim " + "for property damage from blasting?"
  {
    CompensationLowerHead("What compensation can I claim ");
    CompensationLowerTail("for property damage from blasting?");
    LowerAppend("What compensation can I claim ", "for property damage from blasting?");
  }

  lemma CompensationLowerHead(ma: string)
    requires ma == "What compensation can I claim "
    ensures Lower(ma) == "what compensation can i claim "
  {
    LowerMatches(ma, "what compensation can i claim ");
  }

  lemma CompensationLowerTail(mb: string)
    requires mb == "for property damage from blasting?"
    ensures Lower(mb) == "for property damage from blasting?"
  {
    LowerMatches(mb, "for property damage from blasting?");
  }

  lemma CompensationExample(m: string)
    requires m == "What compensation can I claim " + "for property damage from blasting?"
    ensures SelectTopic(m) == Compensation
  {
    var qa, qb := "what compensation can i claim ", "for property damage from blasting?";
    CompensationLower(m);
    CompensationMisses(qa, qb);
    CompensationMissesPollution(qa, qb);
    KeywordIn(qa, qb, "compensation", 5);
  }

  /** No "ri" and no "pe" in the standards question. */
  lemma StandardsMissesRights(qa: string, qb: string)
    requires qa == "what environmental standards must " && qb == "mining companies follow in ghana?"
    ensures !Contains(qa + qb, "rights") && !Contains(qa + qb, "right")
    ensures !Contains(qa + qb, "compensation")
  {
    RightsMissing(qa, qb);
    KeywordMissing(qa, qb, "compensation", 3, 'p', 'e');
  }

  /** No "wa" and no "po" in the standards question. */
  lemma StandardsMisses(qa: string, qb: string)
    requires qa == "what environmental standards must " && qb == "mining companies follow in ghana?"
    ensures !Contains(qa + qb, "water") && !Contains(qa + qb, "pollution")
  {
    KeywordMissing(qa, qb, "water", 0, 'w', 'a');
    KeywordMissing(qa, qb, "pollution", 0, 'p', 'o');
  }

  /** No "am" in the standards question. */
  lemma StandardsMissesDamage(qa: string, qb: string)
    requires qa == "what environmental standards must " && qb == "mining companies follow in ghana?"
    ensures !Contains(qa + qb, "damage")
  {
    KeywordMissing(qa, qb, "damage", 1, 'a', 'm');
  }

  lemma StandardsLower(m: string)
    requires m == "What environmental standards must " + "mining companies follow in Ghana?"
    ensures Lower(m) == "what environmental standards must " + "mining companies follow in ghana?"
  {
    StandardsLowerHead("What environmental standards must ");
    StandardsLowerTail("mining companies follow in Ghana?");
    LowerAppend("What environmental standards must ", "mining companies follow in Ghana?");
  }

  lemma StandardsLowerHead(ma: string)
    requires ma == "What environmental standards must "
    ensures Lower(ma) == "what environmental standards must "
  {
    LowerMatches(ma, "what environmental standards must ");
  }

  lemma StandardsLowerTail(mb: string)
    requires mb == "mining companies follow in Ghana?"
    ensures Lower(mb) == "mining companies follow in ghana?"
  {
    LowerMatches(mb, "mining companies follow in ghana?");
  }

  lemma StandardsExample(m: string)
    requires m == "What environmental standards must " + "mining companies follow in Ghana?"
    ensures SelectTopic(m) == Standards
  {
    var qa, qb := "what environmental standards must ", "mining companies follow in ghana?";
    StandardsLower(m);
    StandardsMissesRights(qa, qb);
    StandardsMisses(qa, qb);
    StandardsMissesDamage(qa, qb);
    KeywordIn(qa, qb, "environmental", 5);
  }

  lemma GeneralMisses(m: string)
    requires m == "hello"
    ensures !Contains(m, "rights") && !Contains(m, "right") && !Contains(m, "water")
    ensures !Contains(m, "pollution")
  {
    assert 'r' !in m && 'w' !in m && 'p' !in m;
    NotContainsMissing(m, "rights", 0, 'r');
    NotContainsMissing(m, "right", 0, 'r');
    NotContainsMissing(m, "water", 0, 'w');
    NotContainsMissing(m, "pollution", 0, 'p');
  }

  lemma GeneralMissesMore(m: string)
    requires m == "hello"
    ensures !Contains(m, "compensation") && !Contains(m, "damage")
    ensures !Contains(m, "environmental") && !Contains(m, "standard")
  {
    assert 'c' !in m && 'd' !in m && 'v' !in m && 's' !in m;
    NotContainsMissing(m, "compensation", 0, 'c');
    NotContainsMissing(m, "damage", 0, 'd');
    NotContainsMissing(m, "environmental", 2, 'v');
    NotContainsMissing(m, "standard", 0, 's');
  }

  lemma GeneralExample(m: string)
    requires m == "hello"
    ensures SelectTopic(m) == General
  {
    LowerOfLower(m);
    GeneralMisses(m);
    GeneralMissesMore(m);
  }
}

=== FILE: reports_store.dfy ===
/** The client-side report store: an ordered list of grievance reports,
    newest first, and the ordered list of callbacks subscribed to changes.

    A callback is identified by a number; the same number subscribed twice
    stands for the same function reference pushed twice. Notifying the
    callbacks is modelled by the trace of identifiers called, in order.
    The wall clock enters as two parameters of `AddReport`: the millisecond
    count of `Date.now()` and the ISO-8601 text of `new Date()`.
 */
module ReportsStore {
  import opened Common

  type ListenerId = nat

  datatype Report = Report(
    id: string,
    name: string,
    phone: string,
    email: string,
    location: string,
    category: string,
    severity: string,
    title: string,
    description: string,
    dateOccurred: string,
    status: string,
    dateSubmitted: string)

  /** What a submitter supplies: every report field except the identifier,
      the status and the submission date. */
  datatype ReportInput = ReportInput(
    name: string,
    phone: string,
    email: string,
    location: string,
    category: string,
    severity: string,
    title: string,
    description: string,
    dateOccurred: string)

  datatype Store = Store(reports: seq<Report>, listeners: seq<ListenerId>)

  /** The identifier prefix, with the year written into it as a literal. */
  const IdPrefix: string := "GR-2024-"

  /** The status every new report starts in. */
  const InitialStatus: string := "Under Review"

  /** The report carries every field the submitter gave, unchanged. */
  predicate Carries(r: Report, input: ReportInput)
  {
    && r.name == input.name
    && r.phone == input.phone
    && r.email == input.email
    && r.location == input.location
    && r.category == input.category
    && r.severity == input.severity
    && r.title == input.title
    && r.description == input.description
    && r.dateOccurred == input.dateOccurred
  }

  /** The identifier built from a millisecond clock reading: the prefix and
      the last three characters of the clock's decimal numeral. From 100 ms
      on these are the clock modulo 1000, zero padded; before that the
      numeral is shorter than three characters and is taken whole. */
  function ReportId(clockMs: nat): (id: string)
    ensures StartsWith(id, IdPrefix)
    ensures clockMs >= 100 ==> id == IdPrefix + Pad3(clockMs % 1000)
    ensures clockMs < 100 ==> id == IdPrefix + Decimal(clockMs)
    ensures |id| <= |IdPrefix| + 3
  {
    DecimalLastThree(clockMs);
    IdPrefix + TakeLast(Decimal(clockMs), 3)
  }

  /** From 100 ms on, two clock readings that agree modulo 1000 give the
      same identifier: identifiers are not unique. */
  lemma ReportIdCollides(a: nat, b: nat)
    requires a >= 100 && b >= 100
    requires a % 1000 == b % 1000
    ensures ReportId(a) == ReportId(b)
  {
  }

  /** A concrete collision: two submissions one second apart. */
  lemma ReportIdCollisionExample()
    ensures ReportId(1123) == ReportId(2123)
  {
    ReportIdCollides(1123, 2123);
  }

  /** Below 10 ms the identifier carries a single digit, and from 100 ms
      on it carries three, so such clocks never collide even when they
      agree modulo 1000. */
  lemma ReportIdShortNeverPadded(a: nat, b: nat)
    requires a < 10 && b >= 100
    ensures |ReportId(a)| == |IdPrefix| + 1
    ensures |ReportId(b)| == |IdPrefix| + 3
    ensures ReportId(a) != ReportId(b)
  {
    assert |Decimal(a)| == 1;
  }

  /** The report `addReport` builds before inserting it. */
  function NewReport(input: ReportInput, clockMs: nat, isoNow: string): Report
  {
    Report(
      id := ReportId(clockMs),
      name := input.name,
      phone := input.phone,
      email := input.email,
      location := input.location,
      category := input.category,
      severity := input.severity,
      title := input.title,
      description := input.description,
      dateOccurred := input.dateOccurred,
      status := InitialStatus,
      dateSubmitted := BeforeFirst(isoNow, 'T'))
  }

  /** What `addReport` leaves behind: the new store, the identifier it
      returned and the callbacks it called, in call order. */
  datatype AddOutcome = AddOutcome(store: Store, id: string, notified: seq<ListenerId>)

  /** `notifyListeners`: `forEach` calls the callbacks one after another,
      so every subscribed callback is called once per subscription, in
      subscription order. */
  function Notify(listeners: seq<ListenerId>): (calls: seq<ListenerId>)
    ensures |calls| == |listeners|
    ensures forall i :: 0 <= i < |listeners| ==> calls[i] == listeners[i]
  {
    if listeners == [] then [] else [listeners[0]] + Notify(listeners[1..])
  }

  /** `addReport`: stamp the submission, insert it at the front, then notify. */
  function AddReport(s: Store, input: ReportInput, clockMs: nat, isoNow: string): (r: AddOutcome)
    ensures |r.store.reports| == |s.reports| + 1
    ensures r.store.reports[1..] == s.reports
    ensures Carries(r.store.reports[0], input)
    ensures r.store.reports[0].status == "Under Review"
    ensures r.store.reports[0].dateSubmitted <= isoNow
    ensures 'T' !in r.store.reports[0].dateSubmitted
    ensures |r.store.reports[0].dateSubmitted| < |isoNow| ==> isoNow[|r.store.reports[0].dateSubmitted|] == 'T'
    ensures r.id == r.store.reports[0].id == ReportId(clockMs)
    ensures r.store.listeners == s.listeners
    ensures r.notified == s.listeners
  {
    var added := NewReport(input, clockMs, isoNow);
    AddOutcome(Store([added] + s.reports, s.listeners), added.id, Notify(s.listeners))
  }

  /** `getReports`: the list itself, newest first. */
  function GetReports(s: Store): seq<Report>
  {
    s.reports
  }

  /** What `getReports` shows after an operation: an addition puts the new
      report, under the identifier `addReport` returned, in front of what it
      showed before; subscribing and unsubscribing leave it as it was. */
  lemma GetReportsAfter(s: Store, op: StoreOp)
    ensures op.Add? ==>
      var shown := GetReports(Apply(s, op).store);
      && |shown| == |GetReports(s)| + 1
      && shown[1..] == GetReports(s)
      && shown[0].id == AddReport(s, op.input, op.clockMs, op.isoNow).id
      && shown[0].status == InitialStatus
    ensures !op.Add? ==> GetReports(Apply(s, op).store) == GetReports(s)
  {
  }

  /** `subscribe`: push the callback. The returned unsubscribe function is
      `Unsubscribe` applied to the same callback. */
  function Subscribe(s: Store, l: ListenerId): (r: Store)
    ensures r.reports == s.reports
    ensures |r.listeners| == |s.listeners| + 1
    ensures r.listeners[..|s.listeners|] == s.listeners
    ensures r.listeners[|s.listeners|] == l
  {
    Store(s.reports, s.listeners + [l])
  }

  /** `xs` appears in `ys` in the same order, possibly with gaps. */
  predicate IsSubsequence(xs: seq<ListenerId>, ys: seq<ListenerId>)
  {
    if xs == [] then true
    else if ys == [] then false
    else if xs[0] == ys[0] then IsSubsequence(xs[1..], ys[1..])
    else IsSubsequence(xs, ys[1..])
  }

  /** `filter(l => l !== listener)`: every copy of `l` removed, every other
      callback kept as often as it was, in the same relative order. */
  function RemoveAll(ls: seq<ListenerId>, l: ListenerId): (r: seq<ListenerId>)
    ensures l !in r
    ensures forall x :: x != l ==> multiset(r)[x] == multiset(ls)[x]
    ensures IsSubsequence(r, ls)
  {
    if ls == [] then []
    else
      assert ls == [ls[0]] + ls[1..];
      if ls[0] == l then RemoveAll(ls[1..], l)
      else [ls[0]] + RemoveAll(ls[1..], l)
  }

  /** The function `subscribe` returns, applied: drop every subscription of
      `l` present at the time of the call. */
  function Unsubscribe(s: Store, l: ListenerId): (r: Store)
    ensures r.reports == s.reports
    ensures l !in r.listeners
    ensures forall x :: x != l ==> multiset(r.listeners)[x] == multiset(s.listeners)[x]
    ensures IsSubsequence(r.listeners, s.listeners)
  {
    Store(s.reports, RemoveAll(s.listeners, l))
  }

  /** Removing a callback that is not subscribed changes nothing. */
  lemma {:induction false} RemoveAbsent(ls: seq<ListenerId>, l: ListenerId)
    requires l !in ls
    ensures RemoveAll(ls, l) == ls
  {
    if ls != [] {
      RemoveAbsent(ls[1..], l);
    }
  }

  /** Filtering distributes over concatenation. */
  lemma {:induction false} RemoveAppend(a: seq<ListenerId>, b: seq<ListenerId>, l: ListenerId)
    ensures RemoveAll(a + b, l) == RemoveAll(a, l) + RemoveAll(b, l)
  {
    if a == [] {
      assert a + b == b;
    } else {
      assert (a + b)[0] == a[0];
      assert (a + b)[1..] == a[1..] + b;
      RemoveAppend(a[1..], b, l);
      if a[0] == l {
        calc {
          RemoveAll(a + b, l);
          RemoveAll(a[1..] + b, l);
          RemoveAll(a[1..], l) + RemoveAll(b, l);
          RemoveAll(a, l) + RemoveAll(b, l);
        }
      } else {
        calc {
          RemoveAll(a + b, l);
          [a[0]] + RemoveAll(a[1..] + b, l);
          [a[0]] + (RemoveAll(a[1..], l) + RemoveAll(b, l));
          ([a[0]] + RemoveAll(a[1..], l)) + RemoveAll(b, l);
          RemoveAll(a, l) + RemoveAll(b, l);
        }
      }
    }
  }

  /** Subscribing the same callback twice and unsubscribing once removes both
      subscriptions: the store is back where it was. */
  lemma SubscribeTwiceUnsubscribeOnce(s: Store, l: ListenerId)
    requires l !in s.listeners
    ensures Unsubscribe(Subscribe(Subscribe(s, l), l), l) == s
  {
    RemoveAppend(s.listeners, [l, l], l);
    assert s.listeners + [l] + [l] == s.listeners + [l, l];
    RemoveAbsent(s.listeners, l);
  }

  /** Unsubscribing is idempotent. */
  lemma UnsubscribeIdempotent(s: Store, l: ListenerId)
    ensures Unsubscribe(Unsubscribe(s, l), l) == Unsubscribe(s, l)
  {
    RemoveAbsent(RemoveAll(s.listeners, l), l);
  }

  /** An operation on the store, as the application can issue them. */
  datatype StoreOp =
    | Add(input: ReportInput, clockMs: nat, isoNow: string)
    | Sub(listener: ListenerId)
    | Unsub(listener: ListenerId)

  /** A store after a run of operations, with every callback call made. */
  datatype Run = Run(store: Store, notified: seq<ListenerId>)

  function Apply(s: Store, op: StoreOp): Run
  {
    match op
    case Add(input, clockMs, isoNow) =>
      var o := AddReport(s, input, clockMs, isoNow);
      Run(o.store, o.notified)
    case Sub(l) => Run(Subscribe(s, l), [])
    case Unsub(l) => Run(Unsubscribe(s, l), [])
  }

  function Execute(s: Store, ops: seq<StoreOp>): Run
    decreases |ops|
  {
    if ops == [] then Run(s, [])
    else
      var first := Apply(s, ops[0]);
      var rest := Execute(first.store, ops[1..]);
      Run(rest.store, first.notified + rest.notified)
  }

  function CountAdds(ops: seq<StoreOp>): nat
  {
    if ops == [] then 0 else (if ops[0].Add? then 1 else 0) + CountAdds(ops[1..])
  }

  /** One operation other than subscribing `l` neither calls nor subscribes
      an absent `l`. */
  lemma StaysAbsent(s: Store, op: StoreOp, l: ListenerId)
    requires l !in s.listeners
    requires op != Sub(l)
    ensures l !in Apply(s, op).store.listeners
    ensures l !in Apply(s, op).notified
  {
    if op.Unsub? && op.listener != l {
      assert multiset(s.listeners)[l] == 0;
      assert multiset(RemoveAll(s.listeners, op.listener))[l] == multiset(s.listeners)[l];
    }
  }

  /** Once a callback is unsubscribed it is never called again, unless it is
      subscribed anew. */
  lemma {:induction false} NoCallsAfterUnsubscribe(s: Store, l: ListenerId, ops: seq<StoreOp>)
    requires l !in s.listeners
    requires forall i :: 0 <= i < |ops| ==> ops[i] != Sub(l)
    ensures l !in Execute(s, ops).notified
    ensures l !in Execute(s, ops).store.listeners
    decreases |ops|
  {
    if ops != [] {
      var first := Apply(s, ops[0]);
      StaysAbsent(s, ops[0], l);
      NoCallsAfterUnsubscribe(first.store, l, ops[1..]);
    }
  }

  /** Reports are never removed or changed: each addition puts exactly one
      report in front of the ones already there. */
  lemma {:induction false} ReportsOnlyGrow(s: Store, ops: seq<StoreOp>)
    ensures |Execute(s, ops).store.reports| == |s.reports| + CountAdds(ops)
    ensures Execute(s, ops).store.reports[CountAdds(ops)..] == s.reports
    decreases |ops|
  {
    if ops != [] {
      var first := Apply(s, ops[0]);
      ReportsOnlyGrow(first.store, ops[1..]);
    }
  }

  /** The store the application starts with: four seed reports, newest
      first, and no subscriber. */
  function InitialStore(): (s: Store)
    ensures |s.reports| == 4 && s.listeners == []
    ensures s.reports[0].id == "GR-2024-089" && s.reports[1].id == "GR-2024-088"
    ensures s.reports[2].id == "GR-2024-087" && s.reports[3].id == "GR-2024-086"
  {
    Store(SeedReports, [])
  }

  const SeedReports: seq<Report> := [
    Report(
      id := "GR-2024-089",
      name := "Kwame A.",
      phone := "+233123456789",
      email := "",
      location := "Konongo, Ashanti Region",
      category := "Environmental",
      severity := "High",
      title := "Water contamination from mining runoff",
      description := "Mining activities have contaminated our water sources, making them unsafe for consumption.",
      dateOccurred := "2024-01-10",
      status := "Under Review",
      dateSubmitted := "2024-01-15"),
    Report(
      id := "GR-2024-088",
      name := "Ama B.",
      phone := "+233123456790",
      email := "ama.b@email.com",
      location := "Obuasi, Ashanti Region",
      category := "Health & Safety",
      severity := "Medium",
      title := "Excessive dust affecting respiratory health",
      description := "Heavy machinery operations create excessive dust that affects our breathing and health.",
      dateOccurred := "2024-01-12",
      status := "In Progress",
      dateSubmitted := "2024-01-14"),
    Report(
      id := "GR-2024-087",
      name := "Kofi C.",
      phone := "+233123456791",
      email := "",
      location := "Tarkwa, Western Region",
      category := "Property Damage",
      severity := "High",
      title := "Property damage from blasting operations",
      description := "Blasting activities have caused cracks in our buildings and property damage.",
      dateOccurred := "2024-01-08",
      status := "Resolved",
      dateSubmitted := "2024-01-13"),
    Report(
      id := "GR-2024-086",
      name := "Akua D.",
      phone := "+233123456792",
      email := "akua.d@email.com",
      location := "Prestea, Western Region",
      category := "Compensation",
      severity := "Critical",
      title := "Unpaid compensation for land acquisition",
      description := "We have not received promised compensation for our land that was acquired for mining operations.",
      dateOccurred := "2024-01-05",
      status := "Escalated",
      dateSubmitted := "2024-01-12")
  ]
}
